=== FILE: README.md ===
# Tetris board engine in Dafny

A model of the game engine of a small pygame Tetris (`tetris.py`).

**Blocks and shapes.** Each block is a 0/1 matrix (`struct`) at a grid position (x, y) with a `current` flag. There are seven shapes, and a new block's orientation comes from two coin tosses: rotate, then flip. A block moves left, right or down, and a blocked move is undone. Rotation turns the block 90° counter-clockwise, then nudges it back inside the grid and upwards until it no longer collides.

**The group.** `BlocksGroup` keeps the blocks in order, with the falling one last. It derives a 20 × 10 grid of `(block, row offset)` cells from them, clears full rows bottom-up, and spawns the next block. A collision at spawn ends the game.

**The event loop.** `main` turns key presses, key releases and two timers into group operations, and handles pause, game over and quitting.

**Modelling choices.**
- Pixel masks are replaced by cells: a block covers grid cell (r, c) when `struct[r - y][c - x]` is 1. Tiles are drawn one pixel inside their 30-pixel cell, so two masks meet exactly when two covered cells coincide.
- The random choices are parameters. `Draw(kind, rotate, flip)` is one block, and `Rolls(fallback, upcoming)` holds the draws one spawn may use.
- Raised exceptions become result values:
  - `Fell | BottomReached` for `move_down`;
  - `Continue | TopReached` for spawning and the timer ticks.

**Modules, one per file:**
- `Options`: the option type.
- `Matrices`: 0/1 matrices, `np.delete`, `np.rot90`, `np.flip` and `remove_empty_columns`.
- `Shapes`: the catalog and the orientation of a new block.
- `Pieces`: cells, `collide`, the moves, `rotate`, the cascade drop and the shedding of a cleared row.
- `Boards`: `update_grid`, `_check_line_completion`, `_create_new_block`, the ticks, the held direction and rotation.
- `Clearing`: the count of cells one clear removes.
- `Bounds`: what a whole game keeps. Every block stays inside the side walls and above the floor, and only the last block can be falling.
- `Session`: the event loop.

**Behaviour of the program worth noting:**
- The line-clear cascade drops every settled block all the way, in one pass over the group. Blocks do not fall one row per tick, and may fall more than one row.
- While paused or after game over, only the release of Space and the window's QUIT event have any effect. Escape and `r` are skipped by the `continue` as well.

## Model

| member | source | states |
|---|---|---|
| Matrices.RemoveEmptyColumnsFrom | tetris.py:15-26 | On a rectangular matrix the result has no all-zero column. It keeps the row count and the number of 1s. The returned offset grows by exactly the number of leading all-zero columns while counting is on, and stays put once off. The width lost covers at least the offset. |
| Matrices.RemoveEmptyColumnsIsCompact | tetris.py:15-26 | The matrix the recursion returns equals an independent definition: every row restricted, in order, to the columns that hold a 1 somewhere. |
| Matrices.DeleteRow | tetris.py:233 | `np.delete(struct, y_offset, 0)`: the rows after the deleted one shift up by one, the shape stays rectangular, and the 1-count falls by exactly the deleted row's 1s. |
| Matrices.DeleteColumn | tetris.py:22 | `np.delete(struct, i, 1)`: every row loses column i and the columns after it shift left by one. The row count is kept. |
| Matrices.Rot90 | tetris.py:63 | `np.rot90` swaps the dimensions of a non-empty rectangular matrix and keeps it rectangular. |
| Matrices.Rot90FourTimes | tetris.py:154 | Four quarter turns give back the matrix. |
| Matrices.FlipRows | tetris.py:67 | `np.flip(struct, 0)`: row i of the result is row n − 1 − i of the matrix, and the shape stays rectangular. |
| Matrices.FlipRowsTwice | tetris.py:67 | Mirroring top to bottom twice gives back the matrix. |
| Shapes.TemplateShape | tetris.py:160-206 | Every catalog matrix is rectangular, holds a 1, and is 1 to 4 cells in each dimension. |
| Shapes.Orient | tetris.py:60-67 | A new block's matrix is rectangular, holds a 1, and is at most 4 × 4. The rotate toss swaps the template's dimensions and no rotation keeps them. |
| Shapes.SquareOrientationsAgree | tetris.py:160-164 | All four orientations of the square are the same matrix. |
| Shapes.TNeverSpawnsStemLeft | tetris.py:62-67 | One optional turn plus one optional flip never yields the T turned three quarters. |
| Pieces.NewPiece | tetris.py:71 | A new block starts at column 4, row 0, inside the grid and current, with the drawn kind and orientation. |
| Pieces.CollideScan | tetris.py:36-43 | The loop over the group, skipping the block itself, reports a hit iff some other entry overlaps the block. That is `Collide` against the group minus the block, or against the whole group when the block is not in it (a block being spawned). |
| Pieces.CollideOthers | tetris.py:37-43 | A block collides with the group minus itself exactly when it overlaps some other member. |
| Pieces.MoveLeft | tetris.py:122-125 | The block moves exactly one column left, or not at all. It moves iff x ≥ 1 and the shifted block overlaps no other. Inside the grid and collision-free are kept, and so are the walls and floor. |
| Pieces.MoveRight | tetris.py:127-130 | The block moves exactly one column right, or not at all. It moves iff x + width ≤ 9 and the shifted block overlaps no other. Inside the grid and collision-free are kept, and so are the walls and floor. |
| Pieces.MoveDown | tetris.py:132-137 | Either Fell, one row lower with nothing else changed, or BottomReached with the same position and `current` cleared. BottomReached happens iff y + 1 + height > 20 or the lowered block overlaps another. The block never passes the floor. |
| Pieces.LeftStopsAtWall | tetris.py:122-125 | On an empty board, n presses of left leave the block at column max(0, x − n). |
| Pieces.PullInsideRight | tetris.py:144-145 | The first nudge loop leaves x alone if the block already fits left of column 10. Otherwise it ends with the block flush against the right edge. |
| Pieces.PushInsideLeft | tetris.py:146-147 | The second nudge loop ends at max(x, 0). |
| Pieces.PullInsideBottom | tetris.py:148-149 | The third nudge loop leaves y alone if the block already fits above the floor. Otherwise it ends with the block resting on the floor. |
| Pieces.RiseClear | tetris.py:150-153 | The final loop raises the block to the lowest row at or above y where it collides with nothing. Every row between that one and y collides. |
| Pieces.Rotate | tetris.py:139-154 | The matrix becomes the quarter turn and kind and `current` are kept. The block ends inside the left and bottom edges, and inside the right edge whenever it is at most 10 rows tall. x is unchanged if the turned block already fits. A block sticking out on the right ends flush with the right edge, and one sticking out on the left ends at column 0. The block ends collision-free, never below the row the edge nudges left it on: at the first row, going up from there, where it collides with nothing. Every row between that one and the nudged start collides. |
| Pieces.RotateCanLeaveTop | tetris.py:139-154 | There is no top bound: a flat line turned above a square ends at row −2. |
| Pieces.DropFully | tetris.py:244-248 | Repeated `move_down` only lowers the block and ends where one more move is blocked. A placed block stays placed, and a block above the floor stays above it. |
| Pieces.DropFullyPassesOnlyOpenRows | tetris.py:244-248 | The drop stops at the first blocked row: `move_down` succeeds from every row between the start and the end. |
| Pieces.Shed | tetris.py:232-240 | Deleting row `off` removes the block iff that row held all its 1s. Otherwise the block keeps a 1 and has no empty column. Its matrix is the compaction of the rest, and x grows by the leading empty columns. The 1-count falls by the row's 1s. The block stays inside the grid, or inside the walls and above the floor when that is all that held. |
| Boards.OwnerOf | tetris.py:268-276 | A grid cell names the last block in group order that has a tile there, with the tile's row in that block. It is 0 iff no block has a tile there. |
| Boards.UpdateGrid | tetris.py:267-276 | The reset-then-stamp loops, stamping only tiles whose cell lies inside the grid, build the occupancy grid of the block list, which is a function of the list alone. This is the corrected stamping of the Findings row. |
| Boards.StampRow | tetris.py:274-276 | Stamping one matrix row of a block writes that row's tiles that lie inside the grid and leaves every other cell as it was. |
| Boards.OccupancyExact | tetris.py:267-276 | With no overlapping blocks, a cell holds (j, off) exactly when block j has a tile there from its row off. |
| Boards.OccupancyAsWritten | tetris.py:267-276 | The grid as the source stamps it, with negative row indices wrapping to the bottom rows, is still 20 × 10. |
| Boards.AsWrittenAgreesInGrid | tetris.py:272-276 | When no block starts above the top edge, the grid as written equals the occupancy grid: the two differ only for blocks above the top edge. |
| Boards.WrappedRowsShowPhantomTiles | tetris.py:272-276 | As written, a block above the top edge is also stamped on the bottom rows, where it has no tile. |
| Boards.LowestFullRow | tetris.py:226-227 | The bottom-up scan finds the lowest full row, or reports that none is full. |
| Boards.Distinct | tetris.py:229-230 | `OrderedDict.fromkeys` keeps exactly the values of the row, each once. |
| Boards.DistinctFirstSeenOrder | tetris.py:229-230 | Those values come out in order of first occurrence. |
| Boards.RowOwners | tetris.py:229-233 | The affected pairs of a full row name blocks whose rows span that row, at the recorded row offset. No block is named twice. Shedding them one after another is therefore a map over the blocks. |
| Boards.RowOwnersHaveTiles | tetris.py:229-230 | Every affected pair is read off a cell of the row where the block it names has a tile. |
| Boards.RowOwnersCoverRow | tetris.py:229-230 | Every cell of the full row names one of the affected pairs. |
| Boards.ShedOwners | tetris.py:232-240 | An affected block is shed at the row it was recorded with, which is the cleared grid row minus its y. Every other block is kept as it was. |
| Boards.SurvivorsMembers | tetris.py:239-240 | The group keeps exactly the blocks that still hold a 1 after shedding, and no other block. |
| Boards.SurvivorsKeepOrder | tetris.py:239-240 | Removing the emptied blocks keeps the rest in their order. The result for a concatenation is the results for the parts, concatenated; an emptied block contributes nothing and a kept one contributes itself. |
| Boards.CascadeFrom | tetris.py:242-248 | A block with the falling flag is untouched; in a reachable game that is `current_block` alone (Bounds.CascadeSkipsOnlyCurrentBlock). Every other block keeps its matrix, kind and column, and only moves down. |
| Boards.CascadeRests | tetris.py:242-248 | Every settled block ends at the first row where `move_down` is blocked by the blocks as they stood at its turn: earlier ones already dropped, later ones not yet. |
| Boards.CascadeKeepsPlacement | tetris.py:242-248 | Dropping keeps a board with no overlaps and everything inside the grid that way. |
| Boards.CascadeCanLeaveGap | tetris.py:242-248 | After the single pass a settled block can still move down. |
| Boards.ClearRow | tetris.py:228-251 | One clear adds exactly 5 to the score, keeps every block well-formed, removes at least one 1-cell, and leaves next block and heading alone. |
| Boards.ClearRowLoss | tetris.py:232-248 | Shedding, removing the emptied blocks and dropping the rest lose exactly the 1-cells of the rows deleted from the affected blocks. Dropping never changes a matrix. |
| Clearing.ClearRowRemovesTenCells | tetris.py:228-248 | On a board with no overlaps and every block inside the grid, one clear takes away exactly the ten tiles of the full row. |
| Boards.CheckLines | tetris.py:224-253 | The recursion ends, leaves no full row, and never lowers the score. With no full row it changes nothing. |
| Boards.CheckLinesScore | tetris.py:224-253 | The score grows by exactly 5 per cleared row, `Clears` counting the recursive clears. `Clears` is 0 iff no row is full. |
| Boards.Incoming | tetris.py:259 | The incoming block is the waiting next block if there is one, otherwise a fresh draw. Either way it is well-formed. |
| Boards.Spawn | tetris.py:258-265 | TopReached happens iff the incoming block overlaps the group, and it changes nothing. Otherwise the next block is a fresh draw, the score does not fall, and no row is left full. |
| Boards.SpawnAppends | tetris.py:258-265 | When no row fills, the incoming block (the waiting next block if there is one) is appended and becomes the current block. |
| Boards.CurrentIsLast | tetris.py:278-280 | `current_block` is a member of the group, and the group is the settled blocks followed by it. |
| Boards.StartMoving | tetris.py:308-311 | The heading becomes the pressed key. The one-shot ignore is armed if a heading was already set. |
| Boards.StopMoving | tetris.py:313-317 | An armed ignore is consumed and the heading kept. Otherwise the heading is cleared. |
| Boards.SecondKeySurvivesFirstRelease | tetris.py:308-317 | Press one key, press another, release the first: the block keeps the second heading, and the next release stops it. |
| Boards.PressReleaseStops | tetris.py:308-317 | Pressing and releasing one key restores the held-direction state. |
| Boards.UpdateCurrent | tetris.py:282-289 | Gravity lowers the current block one row. When it lands, the block is no longer current, `stop_moving_current_block` runs (the heading is cleared unless the one-shot ignore was armed) and a block is spawned. |
| Boards.Land | tetris.py:285-287 | The `except BottomReached` branch keeps the board well-formed and the score from falling. On TopReached the group is the landed block after `stop_moving_current_block`; otherwise no row is left full. The same branch serves `move_current_block` (tetris.py:302-304). |
| Boards.MoveCurrent | tetris.py:291-306 | Without a heading nothing happens. Down is the gravity step, and left or right is the matching move of the current block. |
| Boards.SideMovesKeepCurrentPlaced | tetris.py:291-306 | Holding left or right keeps the falling block inside the grid and off every settled block, and moves no settled block. |
| Boards.RotateCurrent | tetris.py:319-323 | A square is never rotated. Any other current block is replaced by its rotation against the rest of the group. |
| Boards.Initial | tetris.py:215-222 | A new group holds one current block, score 0, a waiting next block, and no heading. |
| Session.NewGame | tetris.py:347-382 | A new game is running, neither paused nor over, with score 0 and one current block. |
| Session.Settle | tetris.py:414-420 | `TopReached` sets game over and any other outcome leaves it as it was. The group becomes the one the tick left. Pause and running are untouched. |
| Session.Run | tetris.py:384-420 | The loop over any sequence of events keeps the blocks well-formed and never lowers the score. |
| Session.Step | tetris.py:385-420 | One event keeps the blocks well-formed and never lowers the score. While paused or over the group is untouched; game over is never undone; after the loop has ended nothing changes. |
| Session.SpaceTogglesPause | tetris.py:389-396 | Releasing Space flips the pause and nothing else, so two releases cancel out. |
| Session.PausedIgnoresEverythingElse | tetris.py:398-400 | While paused, every event other than releasing Space and QUIT leaves the game as it is. |
| Bounds.CheckLinesBounded | tetris.py:224-253 | Clearing rows keeps every block inside the walls, above the floor and at most 4 × 4, and changes no block's falling flag. |
| Bounds.SpawnBounded | tetris.py:258-265 | A spawn onto a group where nothing is falling appends the only falling block and keeps the bounds. |
| Bounds.UpdateCurrentBounded | tetris.py:282-289 | The gravity tick keeps the bounds. On landing the block's flag is cleared before the spawn. |
| Bounds.StepKeepsBounds | tetris.py:385-420 | No event moves a block through a side wall or the floor, lets a block grow beyond 4 × 4, or sets the flag of any block but the last. |
| Bounds.RunKeepsBounds | tetris.py:384-420 | The same holds over any sequence of events. |
| Bounds.GameIsBounded | tetris.py:343-420 | Every game reachable from a new game is bounded in this way. |
| Bounds.CascadeSkipsOnlyCurrentBlock | tetris.py:242-248 | On such a group the cascade's skip-by-flag skips `current_block` (the last block) and nothing else. Every earlier block is dropped in its turn. |
| Session.GameOverIsFinal | tetris.py:398-400 | After game over, no sequence of events changes the group or clears game over. |
| Session.TopReachedEndsGame | tetris.py:414-420 | A gravity tick ends the game iff the block lands and the incoming block overlaps the stack. The group is then left with the landed block after `stop_moving_current_block`: the heading is cleared unless the one-shot ignore was armed. |
| Session.TapChangesNothing | tetris.py:389-404 | Pressing and releasing a movement key, with none held, leaves the game as it was. |
| Session.QuitIsFinal | tetris.py:386-388 | After QUIT no further event has any effect. |

## Left out

- Drawing: surfaces, colours, masks as bitmaps, the grid lines, the side panel and fonts. It is presentation only.
- Pixel masks and `collide_mask` are replaced by cell coverage. Tiles lie one pixel inside their cells, so the two agree.
- Randomness: `get_random_block` and the two `randint` tosses in `Block.__init__` are parameters (`Draw`, `Rolls`).
- The pygame event queue and timers: each timer firing is an event, and no timing is modelled.
- The `r` key restarts by calling `main()` recursively. That nests a second game loop inside the first, which is process control and is not modelled. Escape (`quit()`) ends the loop, as QUIT does.
- `Block.update` calls `move_down` without a group and is never called.
- An empty group: `current_block` raises IndexError, which nothing catches. The model ends the loop there rather than modelling the crash.
- Boards.CascadeRests: does not claim every settled block is at rest after the pass, only at the end of its own turn. The source does not guarantee it either (Boards.CascadeCanLeaveGap).
- Boards.UpdateGrid: stamps only cells inside the grid. The source's negative row indices wrap onto the bottom rows (see Findings), and the engine (Boards.CheckLines, Boards.Spawn, Session.Step) runs on the corrected grid, so a block rotated above the top edge never takes part in a row at the bottom of the grid.
- Boards.OccupancyAsWritten: a tile with rowid below −20 makes the source raise IndexError. The as-written grid leaves such a tile out instead of modelling the crash.
- Boards.ClearRow: states a strict decrease of the 1-cell count rather than exactly ten. Shedding a row keeps a block's y, so the rows below the cleared one move up inside the block, and blocks can then overlap. Only `rotate` lifts a block above the top edge (Pieces.RotateCanLeaveTop); a shed block stays inside the grid. The exact count is proved for boards without overlaps in Clearing.ClearRowRemovesTenCells.
- Session.Step: no invariant that blocks never overlap is claimed across line clears, for the reason above. The bounds are kept across a whole game (Bounds.RunKeepsBounds), but not the top edge. The moves, rotation and cascade each keep it (Pieces.MoveLeft, Pieces.MoveRight, Pieces.MoveDown, Pieces.Rotate, Boards.CascadeKeepsPlacement).

## Findings

| source | as written | input that shows it | evidently intended | confidence | as-written member | corrected member |
|---|---|---|---|---|---|---|
| tetris.py:272-276 | `self.grid[rowid][colid] = ...` with a negative `rowid` indexes from the end of the list. A block raised above the top edge by `rotate` is therefore also stamped on the bottom −y rows (row 20 + rowid). The climb in `rotate` has no bound, so this can reach row 17 and beyond, and a rowid below −20 raises IndexError. Those cells then count towards `all(row)` and name the block as an owner to shed. | Square at (x 3, y 2) and a flat line at (3, 0) turned upright: the line ends at y = −2, and grid cells (18, 3) and (19, 3) name it. | Only cells inside the grid are stamped, so every stamped cell is a tile of the block it names. | medium, not executed | Boards.WrappedRowsShowPhantomTiles | Boards.UpdateGrid |

=== FILE: board.dfy ===
/**
  BlocksGroup: the ordered list of blocks (the falling one last), the score, the
  next block, and the held-direction state. The 20 x 10 occupancy grid is never
  stored: it is a function of the block list, rebuilt wherever the game calls
  update_grid.
*/
module Boards {
  import opened Options
  import opened Matrices
  import opened Shapes
  import opened Pieces

  /** A grid cell: 0, or the pair (block, y_offset) that update_grid stores. */
  datatype Cell = Empty | Owned(piece: nat, row: nat)

  type Grid = seq<seq<Cell>>

  /** The movement keys: K_LEFT, K_RIGHT, K_DOWN. */
  datatype Heading = Left | Right | Down

  datatype Board = Board(
    pieces: seq<Piece>,
    score: int,
    next: Option<Piece>,
    heading: Option<Heading>,
    ignoreNextStop: bool)

  /** The random draws one spawn may use: a block if there is no next one yet, and the new next block. */
  datatype Rolls = Rolls(fallback: Draw, upcoming: Draw)

  /** `_create_new_block` either adds a block or raises TopReached; so do the ticks that call it. */
  datatype Outcome = Continue(board: Board) | TopReached(board: Board)

  /** Points for one completed row. */
  const Reward: int := 5

  predicate AllWellShaped(ps: seq<Piece>) {
    forall j :: 0 <= j < |ps| ==> WellShaped(ps[j])
  }

  predicate AllInGrid(ps: seq<Piece>) {
    forall j :: 0 <= j < |ps| ==> InGrid(ps[j])
  }

  /** No two blocks of the list cover a common cell. */
  predicate Disjoint(ps: seq<Piece>) {
    forall i, j :: 0 <= i < |ps| && 0 <= j < |ps| && i != j ==> !Overlap(ps[i], ps[j])
  }

  /** What every reachable board satisfies: numpy-shaped blocks, each holding a 1. */
  predicate Consistent(b: Board) {
    AllWellShaped(b.pieces) && (b.next.Some? ==> WellShaped(b.next.value))
  }

  lemma OverlapSymmetric(p: Piece, q: Piece)
    ensures Overlap(p, q) <==> Overlap(q, p)
  {
    if Overlap(p, q) {
      var r, c :| Covers(p, r, c) && Covers(q, r, c);
      OverlapWitness(q, p, r, c);
    }
    if Overlap(q, p) {
      var r, c :| Covers(q, r, c) && Covers(p, r, c);
      OverlapWitness(p, q, r, c);
    }
  }

  /** In a disjoint list no block collides with the others. */
  lemma DisjointNoCollide(ps: seq<Piece>, i: nat)
    requires Disjoint(ps) && i < |ps|
    ensures !Collide(ps[i], Others(ps, i))
  {
    CollideOthers(ps, i, ps[i]);
  }

  /** Putting a block that collides with none of the others at index `i` keeps the list disjoint. */
  lemma ReplaceKeepsDisjoint(ps: seq<Piece>, i: nat, q: Piece)
    requires Disjoint(ps) && i < |ps| && !Collide(q, Others(ps, i))
    ensures Disjoint(ps[i := q])
  {
    CollideOthers(ps, i, q);
    var qs := ps[i := q];
    forall j, k | 0 <= j < |qs| && 0 <= k < |qs| && j != k
      ensures !Overlap(qs[j], qs[k])
    {
      if j == i {
      } else if k == i {
        OverlapSymmetric(ps[j], q);
      }
    }
  }

  // ---------------------------------------------------------------------------
  // update_grid
  // ---------------------------------------------------------------------------

  /**
    The value update_grid leaves in cell (r, c) after stamping the first `k` blocks:
    the last of them that covers the cell, with the cell's row within that block.
  */
  function OwnerOf(ps: seq<Piece>, k: nat, r: int, c: int): (cell: Cell)
    requires k <= |ps|
    ensures cell.Owned? ==> cell.piece < k && Covers(ps[cell.piece], r, c)
    ensures cell.Owned? ==> cell.row == r - ps[cell.piece].y
    ensures cell.Owned? ==> forall j :: cell.piece < j < k ==> !Covers(ps[j], r, c)
    ensures cell.Empty? <==> forall j :: 0 <= j < k ==> !Covers(ps[j], r, c)
  {
    if k == 0 then Empty
    else if Covers(ps[k - 1], r, c) then Owned(k - 1, r - ps[k - 1].y)
    else OwnerOf(ps, k - 1, r, c)
  }

  predicate IsGrid(g: Grid) {
    |g| == Rows && forall r :: 0 <= r < Rows ==> |g[r]| == Cols
  }

  /** The grid update_grid builds from the block list. */
  function Occupancy(ps: seq<Piece>): (g: Grid)
    ensures IsGrid(g)
  {
    seq(Rows, r requires 0 <= r < Rows => seq(Cols, c requires 0 <= c < Cols => OwnerOf(ps, |ps|, r, c)))
  }

  /** Every stamped cell is a tile of the block it names, at the row offset it records. */
  lemma OccupancySound(ps: seq<Piece>, r: int, c: int)
    requires 0 <= r < Rows && 0 <= c < Cols
    ensures Occupancy(ps)[r][c].Owned? ==>
      var o := Occupancy(ps)[r][c];
      o.piece < |ps| && Covers(ps[o.piece], r, c) && o.row == r - ps[o.piece].y
    ensures Occupancy(ps)[r][c].Empty? <==> forall j :: 0 <= j < |ps| ==> !Covers(ps[j], r, c)
  {
  }

  /**
    When no two blocks overlap, a cell holds (j, off) exactly when block j covers
    it from its row off: the grid is the list's picture, whatever the stamping order.
  */
  lemma OccupancyExact(ps: seq<Piece>, r: int, c: int, j: nat, off: nat)
    requires Disjoint(ps) && 0 <= r < Rows && 0 <= c < Cols && j < |ps|
    ensures Occupancy(ps)[r][c] == Owned(j, off) <==> Covers(ps[j], r, c) && off == r - ps[j].y
  {
    var o := Occupancy(ps)[r][c];
    if Covers(ps[j], r, c) {
      assert o.Owned?;
      if o.piece != j {
        OverlapWitness(ps[o.piece], ps[j], r, c);
      }
    }
  }

  /** Cell (r, c) after the tiles of block k before (row yo, column xo) have been stamped. */
  function Stamping(ps: seq<Piece>, k: nat, yo: int, xo: int, r: int, c: int): Cell
    requires k < |ps|
  {
    var p := ps[k];
    if Covers(p, r, c) && (r - p.y < yo || (r - p.y == yo && c - p.x < xo))
    then Owned(k, r - p.y)
    else OwnerOf(ps, k, r, c)
  }

  /**
    update_grid as written: start from 20 rows of 10 zeros, then for every block in
    order and every 1 of its matrix, store (block, y_offset) at the tile's cell.
    Only cells inside the grid are stamped; see OccupancyAsWritten for the wrap-around
    of negative rows.
  */
  method UpdateGrid(ps: seq<Piece>) returns (g: Grid)
    ensures g == Occupancy(ps)
  {
    g := seq(Rows, _ => seq(Cols, _ => Empty));
    var k := 0;
    while k < |ps|
      invariant 0 <= k <= |ps|
      invariant IsGrid(g)
      invariant forall r, c :: 0 <= r < Rows && 0 <= c < Cols ==> g[r][c] == OwnerOf(ps, k, r, c)
    {
      StampingBegins(ps, k);
      var yo := 0;
      while yo < |ps[k].shape|
        invariant 0 <= yo <= |ps[k].shape|
        invariant IsGrid(g)
        invariant forall r, c :: 0 <= r < Rows && 0 <= c < Cols ==> g[r][c] == Stamping(ps, k, yo, 0, r, c)
      {
        g := StampRow(ps, k, yo, g);
        yo := yo + 1;
      }
      StampingEnds(ps, k);
      k := k + 1;
    }
    GridIsOccupancy(ps, g);
  }

  lemma StampingBegins(ps: seq<Piece>, k: nat)
    requires k < |ps|
    ensures forall r, c :: Stamping(ps, k, 0, 0, r, c) == OwnerOf(ps, k, r, c)
  {
  }

  lemma StampingEnds(ps: seq<Piece>, k: nat)
    requires k < |ps|
    ensures forall r, c :: Stamping(ps, k, |ps[k].shape|, 0, r, c) == OwnerOf(ps, k + 1, r, c)
  {
  }

  lemma GridIsOccupancy(ps: seq<Piece>, g: Grid)
    requires IsGrid(g) && forall r, c :: 0 <= r < Rows && 0 <= c < Cols ==> g[r][c] == OwnerOf(ps, |ps|, r, c)
    ensures g == Occupancy(ps)
  {
    assert forall r :: 0 <= r < Rows ==> g[r] == Occupancy(ps)[r];
  }

  /** The inner loop of update_grid: stamp the tiles of row yo of block k, left to right. */
  method StampRow(ps: seq<Piece>, k: nat, yo: nat, g0: Grid) returns (g: Grid)
    requires k < |ps| && yo < |ps[k].shape| && IsGrid(g0)
    requires forall r, c :: 0 <= r < Rows && 0 <= c < Cols ==> g0[r][c] == Stamping(ps, k, yo, 0, r, c)
    ensures IsGrid(g)
    ensures forall r, c :: 0 <= r < Rows && 0 <= c < Cols ==> g[r][c] == Stamping(ps, k, yo + 1, 0, r, c)
  {
    g := g0;
    var p := ps[k];
    var xo := 0;
    while xo < |p.shape[yo]|
      invariant 0 <= xo <= |p.shape[yo]|
      invariant IsGrid(g)
      invariant forall r, c :: 0 <= r < Rows && 0 <= c < Cols ==> g[r][c] == Stamping(ps, k, yo, xo, r, c)
    {
      if p.shape[yo][xo] {
        var rowid, colid := p.y + yo, p.x + xo;
        if 0 <= rowid < Rows && 0 <= colid < Cols {
          g := g[rowid := g[rowid][colid := Owned(k, yo)]];
        }
      }
      xo := xo + 1;
    }
  }

  /**
    update_grid as the source writes it: `self.grid[rowid][colid]` with a negative
    rowid indexes from the end of the list, so a tile above the top edge (rowid in
    -20..-1) is stamped on row rowid + 20 at the bottom of the grid.
  */
  function StampedAsWritten(ps: seq<Piece>, k: nat, r: int, c: int): Cell
    requires k <= |ps|
  {
    if k == 0 then Empty
    else if Covers(ps[k - 1], r, c) then Owned(k - 1, r - ps[k - 1].y)
    else if Covers(ps[k - 1], r - Rows, c) then Owned(k - 1, r - Rows - ps[k - 1].y)
    else StampedAsWritten(ps, k - 1, r, c)
  }

  function OccupancyAsWritten(ps: seq<Piece>): (g: Grid)
    ensures IsGrid(g)
  {
    seq(Rows, r requires 0 <= r < Rows => seq(Cols, c requires 0 <= c < Cols => StampedAsWritten(ps, |ps|, r, c)))
  }

  /** A row index at or above 0 never wraps, so the as-written stamping agrees cell by cell. */
  lemma {:induction false} StampedAsWrittenInGrid(ps: seq<Piece>, k: nat, r: int, c: int)
    requires k <= |ps| && 0 <= r < Rows
    requires forall j :: 0 <= j < |ps| ==> ps[j].y >= 0
    ensures StampedAsWritten(ps, k, r, c) == OwnerOf(ps, k, r, c)
  {
    if k > 0 {
      assert !Covers(ps[k - 1], r - Rows, c);
      StampedAsWrittenInGrid(ps, k - 1, r, c);
    }
  }

  /**
    The wrap-around only matters for a block above the top edge: when every block
    starts at row 0 or below, the grid as written is the occupancy grid.
  */
  lemma AsWrittenAgreesInGrid(ps: seq<Piece>)
    requires forall j :: 0 <= j < |ps| ==> ps[j].y >= 0
    ensures OccupancyAsWritten(ps) == Occupancy(ps)
  {
    forall r, c | 0 <= r < Rows && 0 <= c < Cols
      ensures OccupancyAsWritten(ps)[r][c] == Occupancy(ps)[r][c]
    {
      StampedAsWrittenInGrid(ps, |ps|, r, c);
    }
    assert forall r :: 0 <= r < Rows ==> OccupancyAsWritten(ps)[r] == Occupancy(ps)[r];
  }

  /**
    After the rotation of RotateCanLeaveTop the upright line sits at rows -2..1;
    the grid as written records it also at rows 18 and 19 of column 3, where no block
    is, while Occupancy leaves those cells empty.
  */
  lemma WrappedRowsShowPhantomTiles()
    ensures var line := Piece(Line, [[true, true, true, true]], 3, 0, true);
            var square := Piece(Square, Template(Square), 3, 2, false);
            var ps := [square, Rotate(line, [square])];
            && OccupancyAsWritten(ps)[18][3] == Owned(1, 0)
            && OccupancyAsWritten(ps)[19][3] == Owned(1, 1)
            && !Covers(ps[0], 18, 3) && !Covers(ps[1], 18, 3)
            && Occupancy(ps)[18][3] == Empty && Occupancy(ps)[19][3] == Empty
  {
    var line := Piece(Line, [[true, true, true, true]], 3, 0, true);
    var square := Piece(Square, Template(Square), 3, 2, false);
    RotateCanLeaveTop();
    var up := Rotate(line, [square]);
    assert up == Piece(Line, [[true], [true], [true], [true]], 3, -2, true);
    var ps := [square, up];
    assert Covers(up, -2, 3) && Covers(up, -1, 3);
    assert !Covers(up, 18, 3) && !Covers(up, 19, 3);
    assert !Covers(square, 18, 3) && !Covers(square, 19, 3);
    assert OccupancyAsWritten(ps)[18][3] == StampedAsWritten(ps, 2, 18, 3);
    assert OccupancyAsWritten(ps)[19][3] == StampedAsWritten(ps, 2, 19, 3);
    assert Occupancy(ps)[18][3] == OwnerOf(ps, 2, 18, 3);
    assert Occupancy(ps)[19][3] == OwnerOf(ps, 2, 19, 3);
  }

  // ---------------------------------------------------------------------------
  // _check_line_completion
  // ---------------------------------------------------------------------------

  /** `all(row)`: every cell of grid row r holds a block. */
  predicate FullRow(g: Grid, r: nat)
    requires IsGrid(g) && r < Rows
  {
    forall c :: 0 <= c < Cols ==> g[r][c] != Empty
  }

  /** `for i, row in enumerate(self.grid[::-1])` from position i: the lowest full row at or above Rows-1-i. */
  function LowestFullRow(g: Grid, i: nat): (r: Option<nat>)
    requires IsGrid(g)
    decreases Rows - i
    ensures r.Some? ==> r.value < Rows && r.value + i < Rows && FullRow(g, r.value)
    ensures r.Some? ==> forall k: nat :: r.value < k < Rows - i ==> !FullRow(g, k)
    ensures r.None? ==> forall k: nat :: k < Rows - i ==> !FullRow(g, k)
  {
    if i >= Rows then None
    else if FullRow(g, Rows - 1 - i) then Some(Rows - 1 - i)
    else LowestFullRow(g, i + 1)
  }

  /** `OrderedDict.fromkeys(row)`: the distinct values of a row in first-seen order. */
  function Distinct(s: seq<Cell>): (d: seq<Cell>)
    ensures forall x :: x in d <==> x in s
    ensures forall i, j :: 0 <= i < j < |d| ==> d[i] != d[j]
  {
    DistinctFrom(s, 0, [])
  }

  /** The scan of fromkeys: `acc` holds the distinct values of s[..i], and s[i..] is still to read. */
  function DistinctFrom(s: seq<Cell>, i: nat, acc: seq<Cell>): (d: seq<Cell>)
    requires i <= |s|
    requires forall x :: x in acc <==> x in s[..i]
    requires forall a, b :: 0 <= a < b < |acc| ==> acc[a] != acc[b]
    decreases |s| - i
    ensures forall x :: x in d <==> x in s
    ensures forall a, b :: 0 <= a < b < |d| ==> d[a] != d[b]
  {
    if i == |s| then
      assert s[..i] == s;
      acc
    else
      assert s[..i + 1] == s[..i] + [s[i]];
      DistinctFrom(s, i + 1, if s[i] in acc then acc else acc + [s[i]])
  }

  /** Position of the first occurrence of x in s. */
  function FirstIndex(s: seq<Cell>, x: Cell): (i: nat)
    requires x in s
    ensures i < |s| && s[i] == x && forall k :: 0 <= k < i ==> s[k] != x
  {
    if s[0] == x then 0 else 1 + FirstIndex(s[1..], x)
  }

  /** The values come out in the order of their first occurrence. */
  lemma DistinctFirstSeenOrder(s: seq<Cell>)
    ensures forall i, j :: 0 <= i < j < |Distinct(s)| ==>
      FirstIndex(s, Distinct(s)[i]) < FirstIndex(s, Distinct(s)[j])
  {
    DistinctFromOrder(s, 0, []);
  }

  predicate FirstSeenOrder(s: seq<Cell>, d: seq<Cell>)
    requires forall x :: x in d ==> x in s
  {
    forall i, j :: 0 <= i < j < |d| ==> FirstIndex(s, d[i]) < FirstIndex(s, d[j])
  }

  lemma {:induction false} DistinctFromOrder(s: seq<Cell>, i: nat, acc: seq<Cell>)
    requires i <= |s|
    requires forall x :: x in acc <==> x in s[..i]
    requires forall a, b :: 0 <= a < b < |acc| ==> acc[a] != acc[b]
    requires FirstSeenOrder(s, acc)
    decreases |s| - i
    ensures FirstSeenOrder(s, DistinctFrom(s, i, acc))
  {
    if i < |s| {
      assert s[..i + 1] == s[..i] + [s[i]];
      if s[i] !in acc {
        NewValueComesLast(s, i, acc);
        DistinctFromOrder(s, i + 1, acc + [s[i]]);
      } else {
        DistinctFromOrder(s, i + 1, acc);
      }
    }
  }

  /** A value not seen before position i is first seen at i, after all values seen so far. */
  lemma NewValueComesLast(s: seq<Cell>, i: nat, acc: seq<Cell>)
    requires i < |s| && s[i] !in acc
    requires forall x :: x in acc <==> x in s[..i]
    requires FirstSeenOrder(s, acc)
    ensures FirstSeenOrder(s, acc + [s[i]])
  {
    forall a | 0 <= a < |acc|
      ensures acc[a] in s && FirstIndex(s, acc[a]) < i
    {
      SeenBefore(s, i, acc[a]);
    }
    assert FirstIndex(s, s[i]) == i;
  }

  lemma SeenBefore(s: seq<Cell>, i: nat, x: Cell)
    requires i <= |s| && x in s[..i]
    ensures x in s && FirstIndex(s, x) < i
  {
    var k :| 0 <= k < |s[..i]| && s[..i][k] == x;
    assert s[k] == x;
  }

  /** The offset recorded for block j among the affected blocks, if it is one of them. */
  function OffsetOf(owners: seq<Cell>, j: nat): (r: Option<nat>)
    ensures r.Some? ==> Owned(j, r.value) in owners
    ensures r.None? ==> forall off :: Owned(j, off) !in owners
  {
    if |owners| == 0 then None
    else if owners[0].Owned? && owners[0].piece == j then Some(owners[0].row)
    else
      var rest := OffsetOf(owners[1..], j);
      assert forall o :: o in owners ==> o == owners[0] || o in owners[1..];
      rest
  }

  /** The affected pairs of full row r: they all hold blocks that cover the row from the recorded offset. */
  predicate ValidOwners(ps: seq<Piece>, owners: seq<Cell>, r: int) {
    forall o :: o in owners ==> o.Owned? && o.piece < |ps| && o.row == r - ps[o.piece].y && o.row < |ps[o.piece].shape|
  }

  /**
    `affected_blocks` of full row r. Each pair names a block with a tile in the row at
    the recorded offset, no block is named twice, and every cell's pair is present.
    So shedding them one after another is the same as a map over the blocks.
  */
  function RowOwners(ps: seq<Piece>, r: nat): (owners: seq<Cell>)
    requires r < Rows && FullRow(Occupancy(ps), r)
    ensures ValidOwners(ps, owners, r)
    ensures forall i, j :: 0 <= i < j < |owners| ==> owners[i].piece != owners[j].piece
  {
    Distinct(Occupancy(ps)[r])
  }

  /** Every affected pair is read off a cell of the row where its block has a tile. */
  lemma RowOwnersHaveTiles(ps: seq<Piece>, r: nat, o: Cell)
    requires r < Rows && FullRow(Occupancy(ps), r) && o in RowOwners(ps, r)
    ensures o.Owned? && o.piece < |ps|
    ensures exists c :: 0 <= c < Cols && Occupancy(ps)[r][c] == o && Covers(ps[o.piece], r, c)
  {
    assert o in Occupancy(ps)[r];
    var c :| 0 <= c < |Occupancy(ps)[r]| && Occupancy(ps)[r][c] == o;
    OccupancySound(ps, r, c);
  }

  /** Every cell of the full row names an affected pair. */
  lemma RowOwnersCoverRow(ps: seq<Piece>, r: nat, c: int)
    requires r < Rows && FullRow(Occupancy(ps), r) && 0 <= c < Cols
    ensures Occupancy(ps)[r][c] in RowOwners(ps, r)
  {
    assert Occupancy(ps)[r][c] in Occupancy(ps)[r];
  }

  /**
    The shed loop of `_check_line_completion` over the affected blocks: each named
    block loses its recorded row (None when nothing is left), the others stay. The
    source does this one affected pair after another; each names a different block
    (RowOwners), so the order does not matter and a map is the same.
  */
  function ShedOwners(ps: seq<Piece>, owners: seq<Cell>, r: int): (opts: seq<Option<Piece>>)
    requires AllWellShaped(ps) && ValidOwners(ps, owners, r)
    ensures |opts| == |ps|
    ensures forall j :: 0 <= j < |ps| && OffsetOf(owners, j).None? ==> opts[j] == Some(ps[j])
    ensures forall j :: 0 <= j < |ps| && OffsetOf(owners, j).Some? ==>
      OffsetOf(owners, j).value == r - ps[j].y && opts[j] == Shed(ps[j], r - ps[j].y)
  {
    seq(|ps|, j requires 0 <= j < |ps| =>
      match OffsetOf(owners, j)
      case None => Some(ps[j])
      case Some(off) => Shed(ps[j], off))
  }

  /** The blocks still present, in order (`self.remove(block)` for the emptied ones). */
  function Survivors(opts: seq<Option<Piece>>): (ps: seq<Piece>)
    ensures |ps| <= |opts|
  {
    if |opts| == 0 then []
    else (match opts[0] case None => [] case Some(p) => [p]) + Survivors(opts[1..])
  }

  /** A block survives exactly when it is still present after shedding. */
  lemma {:induction false} SurvivorsMembers(opts: seq<Option<Piece>>)
    ensures forall p :: p in Survivors(opts) <==> Some(p) in opts
  {
    if |opts| > 0 {
      SurvivorsMembers(opts[1..]);
      assert opts == [opts[0]] + opts[1..];
    }
  }

  /**
    Removing the emptied blocks keeps the others in their order: Survivors is the
    filter of a concatenation piece by piece, a None contributes nothing and a Some
    contributes its block.
  */
  lemma {:induction false} SurvivorsKeepOrder(a: seq<Option<Piece>>, b: seq<Option<Piece>>, p: Piece)
    decreases |a|
    ensures Survivors(a + b) == Survivors(a) + Survivors(b)
    ensures Survivors([None]) == [] && Survivors([Some(p)]) == [p]
  {
    var none: seq<Option<Piece>>, some: seq<Option<Piece>> := [None], [Some(p)];
    assert none[1..] == [] && some[1..] == [];
    if |a| == 0 {
      assert a + b == b;
    } else {
      assert (a + b)[1..] == a[1..] + b;
      SurvivorsKeepOrder(a[1..], b, p);
    }
  }

  /**
    The gravity pass: `for block in self`, skipping the current block, move each
    block down until BottomReached. Blocks are dropped one after another, each
    against the list as the earlier drops left it.
  */
  function CascadeFrom(ps: seq<Piece>, k: nat): (qs: seq<Piece>)
    requires k <= |ps|
    decreases |ps| - k
    ensures |qs| == |ps|
    ensures forall j :: 0 <= j < |ps| ==>
      qs[j].shape == ps[j].shape && qs[j].kind == ps[j].kind && qs[j].x == ps[j].x
      && qs[j].current == ps[j].current && qs[j].y >= ps[j].y
    ensures forall j :: 0 <= j < k ==> qs[j] == ps[j]
    ensures forall j :: 0 <= j < |ps| && ps[j].current ==> qs[j] == ps[j]
  {
    if k == |ps| then ps
    else if ps[k].current then CascadeFrom(ps, k + 1)
    else
      var q := DropFully(ps[k], Others(ps, k));
      CascadeFrom(ps[k := q], k + 1)
  }

  /** Every settled block from k on ends where its own turn left it: at rest against the list of that moment. */
  lemma {:induction false} CascadeRests(ps: seq<Piece>, k: nat)
    requires k <= |ps|
    decreases |ps| - k
    ensures forall j :: k <= j < |ps| && !ps[j].current ==> RestedInTurn(CascadeFrom(ps, k), ps, j)
  {
    if k < |ps| && ps[k].current {
      CascadeRests(ps, k + 1);
    } else if k < |ps| {
      var q := DropFully(ps[k], Others(ps, k));
      var next := ps[k := q];
      var qs := CascadeFrom(next, k + 1);
      assert CascadeFrom(ps, k) == qs;
      CascadeRests(next, k + 1);
      assert qs[k] == next[k] == q;
      assert qs[..k] == ps[..k];
      assert ps[..k] + ps[k..] == ps;
      forall y | ps[k].y <= y < q.y
        ensures MoveDown(ps[k].(y := y), Others(ps, k)).Fell?
      {
        DropFullyPassesOnlyOpenRows(ps[k], Others(ps, k), y);
      }
      assert RestedInTurn(qs, ps, k);
      forall j | k < j < |ps| && !ps[j].current
        ensures RestedInTurn(qs, ps, j)
      {
        assert next[j..] == ps[j..];
        assert RestedInTurn(qs, next, j);
      }
    }
  }

  /**
    Block j stopped at the first row where one more move_down is blocked by the blocks
    as they stood when its turn came: those before it already dropped, those after it
    not yet. From every row it passed on the way, move_down succeeded.
  */
  predicate RestedInTurn(qs: seq<Piece>, ps: seq<Piece>, j: nat)
    requires |qs| == |ps| && j < |ps|
  {
    var others := Others(qs[..j] + ps[j..], j);
    && MoveDown(qs[j], others).BottomReached?
    && forall k :: ps[j].y <= k < qs[j].y ==> MoveDown(ps[j].(y := k), others).Fell?
  }

  function Cascade(ps: seq<Piece>): seq<Piece> {
    CascadeFrom(ps, 0)
  }

  /** Dropping never moves a block onto another or out of the grid. */
  lemma {:induction false} CascadeKeepsPlacement(ps: seq<Piece>, k: nat)
    requires k <= |ps| && Disjoint(ps) && AllInGrid(ps)
    decreases |ps| - k
    ensures Disjoint(CascadeFrom(ps, k)) && AllInGrid(CascadeFrom(ps, k))
  {
    if k < |ps| && !ps[k].current {
      DisjointNoCollide(ps, k);
      var q := DropFully(ps[k], Others(ps, k));
      ReplaceKeepsDisjoint(ps, k, q);
      CascadeKeepsPlacement(ps[k := q], k + 1);
    } else if k < |ps| {
      CascadeKeepsPlacement(ps, k + 1);
    }
  }

  /**
    A single pass in list order can leave a block hanging: block 0 rests on block 1,
    then block 1 falls to the floor, and block 0 could still move down.
  */
  lemma CascadeCanLeaveGap()
    ensures var above := Piece(T, [[true]], 0, 17, false);
            var below := Piece(T, [[true]], 0, 18, false);
            var after := Cascade([above, below]);
            && after == [above, below.(y := 19)]
            && MoveDown(after[0], Others(after, 0)).Fell?
  {
    var above := Piece(T, [[true]], 0, 17, false);
    var below := Piece(T, [[true]], 0, 18, false);
    var fell := below.(y := 19);
    var ps := [above, below];
    var after := [above, fell];
    GapAboveRests(above, below);
    GapBelowFalls(above, below);
    GapAboveCouldFall(above, below);
    assert Others(ps, 0) == [below] && Others(ps, 1) == [above];
    assert ps[0 := above] == ps && ps[1 := fell] == after;
    assert CascadeFrom(ps, 0) == CascadeFrom(ps, 1);
    assert CascadeFrom(ps, 1) == CascadeFrom(after, 2);
    assert Others(after, 0) == [fell];
  }

  /** The upper unit block rests on the lower one. */
  lemma GapAboveRests(above: Piece, below: Piece)
    requires above == Piece(T, [[true]], 0, 17, false) && below == Piece(T, [[true]], 0, 18, false)
    ensures DropFully(above, [below]) == above
  {
    assert [below][0] == below;
    OverlapWitness(above.(y := 18), below, 18, 0);
    assert MoveDown(above, [below]).BottomReached?;
  }

  /** With the upper one still in place, the lower unit block falls one row to the floor. */
  lemma GapBelowFalls(above: Piece, below: Piece)
    requires above == Piece(T, [[true]], 0, 17, false) && below == Piece(T, [[true]], 0, 18, false)
    ensures DropFully(below, [above]) == below.(y := 19)
  {
    var fell := below.(y := 19);
    assert [above][0] == above;
    assert !Overlap(fell, above) by {
      forall r, c | Covers(fell, r, c)
        ensures !Covers(above, r, c)
      {
      }
    }
    assert MoveDown(below, [above]) == Fell(fell);
    assert MoveDown(fell, [above]).BottomReached?;
  }

  /** Once the lower block is on the floor, the upper one could move down again. */
  lemma GapAboveCouldFall(above: Piece, below: Piece)
    requires above == Piece(T, [[true]], 0, 17, false) && below == Piece(T, [[true]], 0, 18, false)
    ensures MoveDown(above, [below.(y := 19)]).Fell?
  {
    var fell := below.(y := 19);
    assert [fell][0] == fell;
    assert !Overlap(above.(y := 18), fell) by {
      forall r, c | Covers(above.(y := 18), r, c)
        ensures !Covers(fell, r, c)
      {
      }
    }
  }

  // ---------------------------------------------------------------------------
  // Counting tiles: each clear removes at least one, so the recursion ends
  // ---------------------------------------------------------------------------

  function TotalOnes(ps: seq<Piece>): nat {
    if |ps| == 0 then 0 else TotalOnes(ps[..|ps| - 1]) + CountOnes(ps[|ps| - 1].shape)
  }

  function OptOnes(opts: seq<Option<Piece>>): nat {
    if |opts| == 0 then 0
    else OptOnes(opts[..|opts| - 1]) + OptCount(opts[|opts| - 1])
  }

  lemma {:induction false} SurvivorsOnes(opts: seq<Option<Piece>>)
    ensures TotalOnes(Survivors(opts)) == OptOnes(opts)
  {
    if |opts| > 0 {
      SurvivorsOnes(opts[1..]);
      OptOnesFront(opts);
      var head: seq<Piece> := match opts[0] case None => [] case Some(p) => [p];
      TotalOnesAppend(head, Survivors(opts[1..]));
      assert TotalOnes(head) == OptCount(opts[0]) by {
        if head != [] {
          assert head[..0] == [];
        }
      }
    }
  }

  lemma {:induction false} TotalOnesAppend(a: seq<Piece>, b: seq<Piece>)
    decreases |b|
    ensures TotalOnes(a + b) == TotalOnes(a) + TotalOnes(b)
  {
    if |b| == 0 {
      assert a + b == a;
    } else {
      var front := b[..|b| - 1];
      assert (a + b)[..|a + b| - 1] == a + front;
      TotalOnesAppend(a, front);
    }
  }

  lemma {:induction false} OptOnesFront(opts: seq<Option<Piece>>)
    requires |opts| > 0
    decreases |opts|
    ensures OptOnes(opts) == OptCount(opts[0]) + OptOnes(opts[1..])
  {
    if |opts| > 1 {
      var front := opts[..|opts| - 1];
      OptOnesFront(front);
      assert front[1..] == opts[1..][..|opts[1..]| - 1];
    }
  }

  lemma {:induction false} SameShapesSameOnes(a: seq<Piece>, b: seq<Piece>)
    requires |a| == |b| && forall j :: 0 <= j < |a| ==> a[j].shape == b[j].shape
    ensures TotalOnes(a) == TotalOnes(b)
  {
    if |a| > 0 {
      SameShapesSameOnes(a[..|a| - 1], b[..|b| - 1]);
    }
  }

  /** The 1-cells the shed loop deletes from the first n blocks: the recorded row of each affected one. */
  function LostOnes(ps: seq<Piece>, owners: seq<Cell>, r: int, n: nat): nat
    requires n <= |ps| && ValidOwners(ps, owners, r)
  {
    if n == 0 then 0 else LostOnes(ps, owners, r, n - 1) + LostBy(ps, owners, r, n - 1)
  }

  /** The 1-cells block j loses: its recorded row if it is affected, nothing otherwise. */
  function LostBy(ps: seq<Piece>, owners: seq<Cell>, r: int, j: nat): nat
    requires j < |ps| && ValidOwners(ps, owners, r)
  {
    match OffsetOf(owners, j)
    case None => 0
    case Some(off) => RowOnes(ps[j].shape[off])
  }

  /** The 1-cells an optional block holds. */
  function OptCount(o: Option<Piece>): nat {
    match o
    case None => 0
    case Some(p) => CountOnes(p.shape)
  }

  /** Shedding a block keeps all of its 1-cells but those it loses. */
  lemma ShedOneOnes(ps: seq<Piece>, owners: seq<Cell>, r: int)
    requires AllWellShaped(ps) && ValidOwners(ps, owners, r)
    ensures var opts := ShedOwners(ps, owners, r);
      forall j :: 0 <= j < |ps| ==> OptCount(opts[j]) + LostBy(ps, owners, r, j) == CountOnes(ps[j].shape)
  {
  }

  /** Summing a per-block split of the 1-cells over the first n blocks. */
  lemma {:induction false} ShedOwnersOnes(ps: seq<Piece>, opts: seq<Option<Piece>>, owners: seq<Cell>, r: int, n: nat)
    requires ValidOwners(ps, owners, r) && n <= |ps| == |opts|
    requires forall j :: 0 <= j < |ps| ==> OptCount(opts[j]) + LostBy(ps, owners, r, j) == CountOnes(ps[j].shape)
    ensures OptOnes(opts[..n]) + LostOnes(ps, owners, r, n) == TotalOnes(ps[..n])
  {
    if n > 0 {
      ShedOwnersOnes(ps, opts, owners, r, n - 1);
      assert opts[..n][..n - 1] == opts[..n - 1] && opts[..n][n - 1] == opts[n - 1];
      assert ps[..n][..n - 1] == ps[..n - 1] && ps[..n][n - 1] == ps[n - 1];
    }
  }

  /** An affected block loses at least its tile in column c of the full row. */
  lemma {:induction false} LostOnesPositive(ps: seq<Piece>, owners: seq<Cell>, r: int, n: nat, j: nat, c: int)
    requires n <= |ps| && ValidOwners(ps, owners, r) && j < n
    requires OffsetOf(owners, j).Some? && Covers(ps[j], r, c)
    ensures LostOnes(ps, owners, r, n) > 0
  {
    if j < n - 1 {
      LostOnesPositive(ps, owners, r, n - 1, j, c);
    } else {
      var off := OffsetOf(owners, j).value;
      assert off == r - ps[j].y;
      RowOnesPositive(ps[j].shape[off]);
      assert LostBy(ps, owners, r, j) > 0;
    }
  }

  /** One clear: score, shed, remove the emptied blocks, drop the settled ones. */
  function ClearRow(b: Board, r: nat): (b': Board)
    requires AllWellShaped(b.pieces) && r < Rows && FullRow(Occupancy(b.pieces), r)
    ensures b'.score == b.score + Reward
    ensures b'.next == b.next && b'.heading == b.heading && b'.ignoreNextStop == b.ignoreNextStop
    ensures AllWellShaped(b'.pieces)
    ensures TotalOnes(b'.pieces) < TotalOnes(b.pieces)
  {
    var ps := b.pieces;
    var owners := RowOwners(ps, r);
    var opts := ShedOwners(ps, owners, r);
    ShedOwnersWellShaped(ps, owners, r);
    ClearRowLoss(b, r);
    RowLosesOnes(ps, r);
    b.(score := b.score + Reward, pieces := Cascade(Survivors(opts)))
  }

  /** The blocks lose exactly the 1-cells of the rows shed from them. */
  lemma ClearRowLoss(b: Board, r: nat)
    requires AllWellShaped(b.pieces) && r < Rows && FullRow(Occupancy(b.pieces), r)
    ensures var ps := b.pieces;
      var kept := Survivors(ShedOwners(ps, RowOwners(ps, r), r));
      TotalOnes(Cascade(kept)) + LostOnes(ps, RowOwners(ps, r), r, |ps|) == TotalOnes(ps)
  {
    ShedLoss(b.pieces, RowOwners(b.pieces, r), r);
  }

  /** Shedding, removing the emptied blocks and dropping the rest loses exactly the shed rows. */
  lemma ShedLoss(ps: seq<Piece>, owners: seq<Cell>, r: int)
    requires AllWellShaped(ps) && ValidOwners(ps, owners, r)
    ensures TotalOnes(Cascade(Survivors(ShedOwners(ps, owners, r)))) + LostOnes(ps, owners, r, |ps|) == TotalOnes(ps)
  {
    var opts := ShedOwners(ps, owners, r);
    var kept := Survivors(opts);
    ShedOneOnes(ps, owners, r);
    ShedOwnersOnes(ps, opts, owners, r, |ps|);
    assert opts[..|ps|] == opts && ps[..|ps|] == ps;
    SurvivorsOnes(opts);
    SameShapesSameOnes(kept, Cascade(kept));
  }

  /** The block owning column 0 of the full row loses a tile there. */
  lemma RowLosesOnes(ps: seq<Piece>, r: nat)
    requires r < Rows && FullRow(Occupancy(ps), r)
    ensures LostOnes(ps, RowOwners(ps, r), r, |ps|) > 0
  {
    var owners := RowOwners(ps, r);
    var o := Occupancy(ps)[r][0];
    RowOwnersCoverRow(ps, r, 0);
    LostOnesPositive(ps, owners, r, |ps|, o.piece, 0);
  }

  lemma ShedOwnersWellShaped(ps: seq<Piece>, owners: seq<Cell>, r: int)
    requires AllWellShaped(ps) && ValidOwners(ps, owners, r)
    ensures AllWellShaped(Survivors(ShedOwners(ps, owners, r)))
  {
    var opts := ShedOwners(ps, owners, r);
    forall j | 0 <= j < |opts| && opts[j].Some?
      ensures WellShaped(opts[j].value)
    {
    }
    var kept := Survivors(opts);
    SurvivorsMembers(opts);
    forall i | 0 <= i < |kept|
      ensures WellShaped(kept[i])
    {
      assert Some(kept[i]) in opts;
    }
  }

  /**
    _check_line_completion: while the scan finds a full row, clear the lowest one and
    scan again. Ends because every clear removes at least one 1-cell.
  */
  function CheckLines(b: Board): (b': Board)
    requires AllWellShaped(b.pieces)
    decreases TotalOnes(b.pieces)
    ensures AllWellShaped(b'.pieces)
    ensures NoFullRow(Occupancy(b'.pieces))
    ensures b'.score >= b.score
    ensures b'.next == b.next && b'.heading == b.heading && b'.ignoreNextStop == b.ignoreNextStop
    ensures NoFullRow(Occupancy(b.pieces)) ==> b' == b
  {
    var g := Occupancy(b.pieces);
    match LowestFullRow(g, 0)
    case None => b
    case Some(r) =>
      var c := ClearRow(b, r);
      CheckLines(c)
  }

  /** How many rows `_check_line_completion` clears: one per recursive call. */
  function Clears(b: Board): (n: nat)
    requires AllWellShaped(b.pieces)
    decreases TotalOnes(b.pieces)
    ensures n == 0 <==> NoFullRow(Occupancy(b.pieces))
  {
    match LowestFullRow(Occupancy(b.pieces), 0)
    case None => 0
    case Some(r) => 1 + Clears(ClearRow(b, r))
  }

  /** The score grows by exactly 5 for every row cleared, and by nothing else. */
  lemma {:induction false} CheckLinesScore(b: Board)
    requires AllWellShaped(b.pieces)
    decreases TotalOnes(b.pieces)
    ensures CheckLines(b).score == b.score + Reward * Clears(b)
  {
    match LowestFullRow(Occupancy(b.pieces), 0)
    case None =>
    case Some(r) => CheckLinesScore(ClearRow(b, r));
  }

  /** No row of the grid is full. */
  predicate NoFullRow(g: Grid)
    requires IsGrid(g)
  {
    forall r: nat :: r < Rows ==> !FullRow(g, r)
  }

  // ---------------------------------------------------------------------------
  // _create_new_block, the current block, and the held direction
  // ---------------------------------------------------------------------------

  /** `self.next_block or BlocksGroup.get_random_block()`. */
  function Incoming(b: Board, rolls: Rolls): (p: Piece)
    requires Consistent(b)
    ensures WellShaped(p)
    ensures b.next.Some? ==> p == b.next.value
    ensures b.next.None? ==> p == NewPiece(rolls.fallback) && InGrid(p) && p.current
  {
    match b.next
    case Some(p) => p
    case None => NewPiece(rolls.fallback)
  }

  /**
    _create_new_block: TopReached, with nothing changed, if the incoming block overlaps
    a block already there; otherwise append it, draw the next block and check lines.
  */
  function Spawn(b: Board, rolls: Rolls): (o: Outcome)
    requires Consistent(b)
    ensures Consistent(o.board)
    ensures o.TopReached? <==> Collide(Incoming(b, rolls), b.pieces)
    ensures o.TopReached? ==> o.board == b
    ensures o.Continue? ==> o.board.next == Some(NewPiece(rolls.upcoming))
    ensures o.Continue? ==> o.board.score >= b.score
    ensures o.Continue? ==> NoFullRow(Occupancy(o.board.pieces))
  {
    var p := Incoming(b, rolls);
    if Collide(p, b.pieces) then TopReached(b)
    else Continue(CheckLines(b.(pieces := b.pieces + [p], next := Some(NewPiece(rolls.upcoming)))))
  }

  /**
    When the new block completes no row, it becomes the last block of the list (the
    current one) and the blocks before it are untouched.
  */
  lemma SpawnAppends(b: Board, rolls: Rolls)
    requires Consistent(b) && !Collide(Incoming(b, rolls), b.pieces)
    requires NoFullRow(Occupancy(b.pieces + [Incoming(b, rolls)]))
    ensures Spawn(b, rolls).board.pieces == b.pieces + [Incoming(b, rolls)]
    ensures Spawn(b, rolls).board.score == b.score
    ensures Current(Spawn(b, rolls).board) == Incoming(b, rolls)
  {
  }

  /** `current_block`: the last block of the group. */
  function Current(b: Board): Piece
    requires |b.pieces| > 0
  {
    b.pieces[|b.pieces| - 1]
  }

  /** The group is the settled blocks followed by the current one, which belongs to it. */
  lemma CurrentIsLast(b: Board)
    requires |b.pieces| > 0
    ensures Current(b) in b.pieces && b.pieces == Settled(b) + [Current(b)]
  {
    assert b.pieces == b.pieces[..|b.pieces| - 1] + [b.pieces[|b.pieces| - 1]];
  }

  /** The group with its last block replaced. */
  function WithCurrent(b: Board, p: Piece): (b': Board)
    requires |b.pieces| > 0
    ensures |b'.pieces| == |b.pieces| && Current(b') == p
    ensures Settled(b') == Settled(b)
    ensures b' == b.(pieces := b'.pieces)
  {
    var b' := b.(pieces := b.pieces[..|b.pieces| - 1] + [p]);
    assert b'.pieces[..|b.pieces| - 1] == b.pieces[..|b.pieces| - 1];
    b'
  }

  /** The blocks other than the current one. */
  function Settled(b: Board): (o: seq<Piece>)
    requires |b.pieces| > 0
    ensures o == b.pieces[..|b.pieces| - 1]
  {
    var o := Others(b.pieces, |b.pieces| - 1);
    assert b.pieces[|b.pieces|..] == [];
    o
  }

  /** start_moving_current_block: a second key while one is held arms the one-shot ignore. */
  function StartMoving(b: Board, h: Heading): (b': Board)
    ensures b'.heading == Some(h)
    ensures b'.ignoreNextStop == (b.ignoreNextStop || b.heading.Some?)
    ensures b' == b.(heading := b'.heading, ignoreNextStop := b'.ignoreNextStop)
  {
    b.(heading := Some(h), ignoreNextStop := if b.heading.Some? then true else b.ignoreNextStop)
  }

  /** stop_moving_current_block: consume the ignore if armed, else drop the heading. */
  function StopMoving(b: Board): (b': Board)
    ensures !b'.ignoreNextStop
    ensures b.ignoreNextStop ==> b'.heading == b.heading
    ensures !b.ignoreNextStop ==> b'.heading.None?
    ensures b' == b.(heading := b'.heading, ignoreNextStop := false)
  {
    if b.ignoreNextStop then b.(ignoreNextStop := false) else b.(heading := None)
  }

  /**
    Pressing a second direction before releasing the first: the release of the first
    key does not stop the block, it keeps moving the new way; a later release stops it.
  */
  lemma SecondKeySurvivesFirstRelease(b: Board, first: Heading, second: Heading)
    requires b.heading.None? && !b.ignoreNextStop
    ensures var held := StartMoving(StartMoving(b, first), second);
            && StopMoving(held).heading == Some(second)
            && StopMoving(StopMoving(held)).heading.None?
  {
  }

  /** A single key pressed and released leaves no heading behind. */
  lemma PressReleaseStops(b: Board, h: Heading)
    requires b.heading.None? && !b.ignoreNextStop
    ensures StopMoving(StartMoving(b, h)) == b
  {
  }

  /** BottomReached: store the settled block, stop moving, spawn the next one. */
  function Land(b: Board, settled: Piece, rolls: Rolls): (o: Outcome)
    requires Consistent(b) && |b.pieces| > 0 && WellShaped(settled)
    ensures Consistent(o.board)
    ensures o.board.score >= b.score
    ensures o.TopReached? ==> o.board == StopMoving(WithCurrent(b, settled))
    ensures o.Continue? ==> NoFullRow(Occupancy(o.board.pieces))
  {
    Spawn(StopMoving(WithCurrent(b, settled)), rolls)
  }

  lemma WithCurrentConsistent(b: Board, p: Piece)
    requires Consistent(b) && |b.pieces| > 0 && WellShaped(p)
    ensures Consistent(WithCurrent(b, p))
  {
    var b' := WithCurrent(b, p);
    forall j | 0 <= j < |b'.pieces|
      ensures WellShaped(b'.pieces[j])
    {
      if j < |b.pieces| - 1 {
        assert b'.pieces[j] == b.pieces[..|b.pieces| - 1][j];
      }
    }
  }

  /** update_current_block: the gravity tick moves the current block down one row. */
  function UpdateCurrent(b: Board, rolls: Rolls): (o: Outcome)
    requires Consistent(b) && |b.pieces| > 0
    ensures Consistent(o.board) && o.board.score >= b.score
    ensures MoveDown(Current(b), Settled(b)).Fell? ==>
      o == Continue(WithCurrent(b, Current(b).(y := Current(b).y + 1)))
    ensures MoveDown(Current(b), Settled(b)).BottomReached? ==>
      o == Spawn(StopMoving(WithCurrent(b, Current(b).(current := false))), rolls)
  {
    var p := Current(b);
    match MoveDown(p, Settled(b))
    case Fell(q) =>
      WithCurrentConsistent(b, q);
      Continue(WithCurrent(b, q))
    case BottomReached(q) =>
      WithCurrentConsistent(b, q);
      Land(b, q, rolls)
  }

  /** move_current_block: the repeat tick applies the held heading, if any. */
  function MoveCurrent(b: Board, rolls: Rolls): (o: Outcome)
    requires Consistent(b) && |b.pieces| > 0
    ensures Consistent(o.board) && o.board.score >= b.score
    ensures b.heading.None? ==> o == Continue(b)
    ensures b.heading == Some(Down) ==> o == UpdateCurrent(b, rolls)
    ensures b.heading == Some(Left) ==> o == Continue(WithCurrent(b, MoveLeft(Current(b), Settled(b))))
    ensures b.heading == Some(Right) ==> o == Continue(WithCurrent(b, MoveRight(Current(b), Settled(b))))
  {
    match b.heading
    case None => Continue(b)
    case Some(h) =>
      match h
      case Down => UpdateCurrent(b, rolls)
      case Left =>
        var q := MoveLeft(Current(b), Settled(b));
        WithCurrentConsistent(b, q);
        Continue(WithCurrent(b, q))
      case Right =>
        var q := MoveRight(Current(b), Settled(b));
        WithCurrentConsistent(b, q);
        Continue(WithCurrent(b, q))
  }

  /** rotate_current_block: SquareBlocks are never rotated. */
  function RotateCurrent(b: Board): (b': Board)
    requires Consistent(b) && |b.pieces| > 0
    ensures Consistent(b')
    ensures Current(b).kind == Square ==> b' == b
    ensures Current(b).kind != Square ==> b' == WithCurrent(b, Rotate(Current(b), Settled(b)))
  {
    var p := Current(b);
    if p.kind == Square then b
    else
      var q := Rotate(p, Settled(b));
      Rot90HasOne(p.shape);
      WithCurrentConsistent(b, q);
      WithCurrent(b, q)
  }

  /**
    Sideways moves keep the falling block inside the grid and off every settled
    block, and leave the settled blocks where they are.
  */
  lemma SideMovesKeepCurrentPlaced(b: Board, rolls: Rolls)
    requires Consistent(b) && |b.pieces| > 0 && (b.heading == Some(Left) || b.heading == Some(Right))
    requires InGrid(Current(b)) && !Collide(Current(b), Settled(b))
    ensures var b' := MoveCurrent(b, rolls).board;
      |b'.pieces| == |b.pieces| && Settled(b') == Settled(b)
      && InGrid(Current(b')) && !Collide(Current(b'), Settled(b'))
  {
  }

  /** BlocksGroup.__init__: no next block, no heading, score 0, then one spawn. */
  function Initial(rolls: Rolls): (b: Board)
    ensures Consistent(b)
    ensures b.pieces == [NewPiece(rolls.fallback)] && b.score == 0
    ensures b.next == Some(NewPiece(rolls.upcoming)) && b.heading.None? && !b.ignoreNextStop
  {
    var empty := Board([], 0, None, None, false);
    var p := NewPiece(rolls.fallback);
    OneBlockFillsNoRow(p);
    Spawn(empty, rolls).board
  }

  /** A single new block is at most 4 wide, so it cannot fill a row of 10 cells. */
  lemma OneBlockFillsNoRow(p: Piece)
    requires p.x == SpawnX
    ensures NoFullRow(Occupancy([p]))
  {
    forall r: nat | r < Rows
      ensures !FullRow(Occupancy([p]), r)
    {
      assert Occupancy([p])[r][0] == OwnerOf([p], 1, r, 0);
      assert !Covers(p, r, 0);
    }
  }
}

=== FILE: bounds.dfy ===
/**
  What a whole game keeps beyond well-formedness. Every block, and the waiting next
  one, stays inside the side walls and above the floor and is at most 4 x 4 (there
  is no top bound: rotate can lift a block above row 0). Only the last block of the
  group, `current_block`, can have the `current` flag, so the cascade's "skip the
  block whose flag is set" skips `current_block` and nothing else.
*/
module Bounds {
  import opened Options
  import opened Shapes
  import opened Pieces
  import opened Boards
  import opened Session

  predicate AllWalled(ps: seq<Piece>) {
    forall j :: 0 <= j < |ps| ==> Walled(ps[j])
  }

  /** No block before the last one is falling. */
  predicate FallingLast(ps: seq<Piece>) {
    forall j :: 0 <= j < |ps| - 1 ==> !ps[j].current
  }

  /** No block at all is falling: the group between a landing and the next spawn. */
  predicate NoneFalling(ps: seq<Piece>) {
    forall j :: 0 <= j < |ps| ==> !ps[j].current
  }

  predicate Bounded(b: Board) {
    AllWalled(b.pieces) && FallingLast(b.pieces) && (b.next.Some? ==> Walled(b.next.value))
  }

  // ---------------------------------------------------------------------------
  // _check_line_completion
  // ---------------------------------------------------------------------------

  /** Shedding keeps every block walled and keeps its flag. */
  lemma ShedOwnersBounded(ps: seq<Piece>, owners: seq<Cell>, r: int)
    requires AllWellShaped(ps) && ValidOwners(ps, owners, r) && AllWalled(ps)
    ensures var opts := ShedOwners(ps, owners, r);
      forall j :: 0 <= j < |opts| && opts[j].Some? ==>
        Walled(opts[j].value) && opts[j].value.current == ps[j].current
  {
  }

  lemma FallingLastCons(p: Piece, s: seq<Piece>)
    requires FallingLast(s) && (!p.current || |s| == 0)
    ensures FallingLast([p] + s)
  {
    assert forall j :: 1 <= j < |s| + 1 ==> ([p] + s)[j] == s[j - 1];
  }

  /** Removing the emptied blocks keeps both properties of the rest. */
  lemma {:induction false} SurvivorsBounded(opts: seq<Option<Piece>>)
    requires forall j :: 0 <= j < |opts| && opts[j].Some? ==> Walled(opts[j].value)
    requires forall j :: 0 <= j < |opts| - 1 && opts[j].Some? ==> !opts[j].value.current
    decreases |opts|
    ensures AllWalled(Survivors(opts)) && FallingLast(Survivors(opts))
  {
    if |opts| > 0 {
      var rest := opts[1..];
      assert forall j :: 0 <= j < |rest| ==> rest[j] == opts[j + 1];
      SurvivorsBounded(rest);
      var tail := Survivors(rest);
      match opts[0]
      case None =>
        assert Survivors(opts) == [] + tail;
      case Some(p) =>
        assert Survivors(opts) == [p] + tail;
        FallingLastCons(p, tail);
    }
  }

  /** Dropping keeps every block walled: a drop never goes below the floor. */
  lemma {:induction false} CascadeWalled(ps: seq<Piece>, k: nat)
    requires k <= |ps| && AllWalled(ps)
    decreases |ps| - k
    ensures AllWalled(CascadeFrom(ps, k))
  {
    if k < |ps| && !ps[k].current {
      var q := DropFully(ps[k], Others(ps, k));
      CascadeWalled(ps[k := q], k + 1);
    } else if k < |ps| {
      CascadeWalled(ps, k + 1);
    }
  }

  /** Dropping never changes a flag. */
  lemma CascadeFallingLast(ps: seq<Piece>)
    requires FallingLast(ps)
    ensures FallingLast(Cascade(ps))
  {
  }

  lemma ClearRowBounded(b: Board, r: nat)
    requires AllWellShaped(b.pieces) && r < Rows && FullRow(Occupancy(b.pieces), r)
    requires Bounded(b)
    ensures Bounded(ClearRow(b, r))
  {
    var ps := b.pieces;
    var owners := RowOwners(ps, r);
    var opts := ShedOwners(ps, owners, r);
    ShedOwnersBounded(ps, owners, r);
    SurvivorsBounded(opts);
    var kept := Survivors(opts);
    CascadeWalled(kept, 0);
    CascadeFallingLast(kept);
    assert ClearRow(b, r).pieces == Cascade(kept);
  }

  /** Every clear of the recursion keeps the bounds and the flags. */
  lemma {:induction false} CheckLinesBounded(b: Board)
    requires AllWellShaped(b.pieces) && Bounded(b)
    decreases TotalOnes(b.pieces)
    ensures Bounded(CheckLines(b))
  {
    match LowestFullRow(Occupancy(b.pieces), 0)
    case None =>
    case Some(r) =>
      ClearRowBounded(b, r);
      CheckLinesBounded(ClearRow(b, r));
  }

  // ---------------------------------------------------------------------------
  // _create_new_block and the ticks
  // ---------------------------------------------------------------------------

  /** A spawn onto a group with nothing falling keeps the bounds; the new block is the only falling one. */
  lemma SpawnBounded(b: Board, rolls: Rolls)
    requires Consistent(b) && AllWalled(b.pieces) && NoneFalling(b.pieces)
    requires b.next.Some? ==> Walled(b.next.value)
    ensures Bounded(Spawn(b, rolls).board)
  {
    var p := Incoming(b, rolls);
    if !Collide(p, b.pieces) {
      var grown := b.(pieces := b.pieces + [p], next := Some(NewPiece(rolls.upcoming)));
      assert forall j :: 0 <= j < |b.pieces| ==> grown.pieces[j] == b.pieces[j];
      assert Bounded(grown);
      CheckLinesBounded(grown);
    }
  }

  lemma WithCurrentBounded(b: Board, p: Piece)
    requires |b.pieces| > 0 && Bounded(b) && Walled(p)
    ensures Bounded(WithCurrent(b, p))
    ensures !p.current ==> NoneFalling(WithCurrent(b, p).pieces)
  {
    var b' := WithCurrent(b, p);
    assert forall j :: 0 <= j < |b.pieces| - 1 ==> b'.pieces[j] == Settled(b')[j] == Settled(b)[j] == b.pieces[j];
  }

  /** Landing clears the flag of the last block, so the spawn sees nothing falling. */
  lemma LandBounded(b: Board, settled: Piece, rolls: Rolls)
    requires Consistent(b) && |b.pieces| > 0 && WellShaped(settled)
    requires Bounded(b) && Walled(settled) && !settled.current
    ensures Bounded(Land(b, settled, rolls).board)
  {
    WithCurrentConsistent(b, settled);
    WithCurrentBounded(b, settled);
    SpawnBounded(StopMoving(WithCurrent(b, settled)), rolls);
  }

  lemma UpdateCurrentBounded(b: Board, rolls: Rolls)
    requires Consistent(b) && |b.pieces| > 0 && Bounded(b)
    ensures Bounded(UpdateCurrent(b, rolls).board)
  {
    var p := Current(b);
    assert Walled(p);
    match MoveDown(p, Settled(b))
    case Fell(q) =>
      WithCurrentBounded(b, q);
    case BottomReached(q) =>
      LandBounded(b, q, rolls);
  }

  lemma MoveCurrentBounded(b: Board, rolls: Rolls)
    requires Consistent(b) && |b.pieces| > 0 && Bounded(b)
    ensures Bounded(MoveCurrent(b, rolls).board)
  {
    var p := Current(b);
    assert Walled(p);
    match b.heading
    case None =>
    case Some(h) =>
      match h
      case Down => UpdateCurrentBounded(b, rolls);
      case Left => WithCurrentBounded(b, MoveLeft(p, Settled(b)));
      case Right => WithCurrentBounded(b, MoveRight(p, Settled(b)));
  }

  lemma RotateCurrentBounded(b: Board)
    requires Consistent(b) && |b.pieces| > 0 && Bounded(b)
    ensures Bounded(RotateCurrent(b))
  {
    var p := Current(b);
    assert Walled(p) && WellShaped(p);
    if p.kind != Square {
      WithCurrentBounded(b, Rotate(p, Settled(b)));
    }
  }

  // ---------------------------------------------------------------------------
  // The event loop
  // ---------------------------------------------------------------------------

  /** A new game starts bounded: one falling block at the spawn point and a walled next block. */
  lemma NewGameBounded(rolls: Rolls)
    ensures Bounded(NewGame(rolls).board)
  {
  }

  /**
    No event moves a block through a side wall or the floor, makes a block larger
    than 4 x 4, or sets the flag of a block other than the last.
  */
  lemma StepKeepsBounds(g: Game, e: Event)
    requires Consistent(g.board) && Bounded(g.board)
    ensures Bounded(Step(g, e).board)
  {
    if g.running && !g.paused && !g.over && |g.board.pieces| > 0 {
      match e
      case KeyUp(k) =>
        if k == UpKey {
          RotateCurrentBounded(g.board);
        }
      case GravityTick(rolls) =>
        UpdateCurrentBounded(g.board, rolls);
      case RepeatTick(rolls) =>
        if g.board.heading.Some? {
          MoveCurrentBounded(g.board, rolls);
        }
      case _ =>
    }
  }

  lemma {:induction false} RunKeepsBounds(g: Game, es: seq<Event>)
    requires Consistent(g.board) && Bounded(g.board)
    decreases |es|
    ensures Bounded(Run(g, es).board)
  {
    if |es| > 0 {
      StepKeepsBounds(g, es[0]);
      RunKeepsBounds(Step(g, es[0]), es[1..]);
    }
  }

  /** Every reachable game is bounded. */
  lemma GameIsBounded(rolls: Rolls, es: seq<Event>)
    ensures Bounded(Run(NewGame(rolls), es).board)
  {
    NewGameBounded(rolls);
    RunKeepsBounds(NewGame(rolls), es);
  }

  /**
    On a bounded group the cascade skips exactly `current_block`: every block before
    the last is dropped in its turn, and the last one is left alone while it is falling.
  */
  lemma CascadeSkipsOnlyCurrentBlock(ps: seq<Piece>)
    requires FallingLast(ps) && |ps| > 0
    ensures forall j :: 0 <= j < |ps| - 1 ==> RestedInTurn(Cascade(ps), ps, j)
    ensures ps[|ps| - 1].current ==> Cascade(ps)[|ps| - 1] == ps[|ps| - 1]
  {
    CascadeRests(ps, 0);
  }
}

=== FILE: clearing.dfy ===
/**
  How many 1-cells one clear of `_check_line_completion` takes away. When no two
  blocks overlap and every block lies inside the grid, the affected blocks lose
  exactly the ten tiles of the full row: each column of that row is a tile of
  exactly one block, and that block is among the affected ones.
*/
module Clearing {
  import opened Matrices
  import opened Pieces
  import opened Boards

  function Clamp(v: int, hi: nat): (r: nat)
    ensures r <= hi && (0 <= v <= hi ==> r == v)
  {
    if v < 0 then 0 else if v > hi then hi else v
  }

  /** The number of columns c < h in which block p has a tile on grid row r. */
  function RowCover(p: Piece, r: int, h: nat): nat {
    if h == 0 then 0 else RowCover(p, r, h - 1) + (if Covers(p, r, h - 1) then 1 else 0)
  }

  /** Counting a block's tiles along a grid row counts the 1s of the matching matrix row. */
  lemma {:induction false} RowCoverCountsRow(p: Piece, r: int, h: nat)
    requires 0 <= p.x && 0 <= r - p.y < |p.shape|
    ensures RowCover(p, r, h) == RowOnes(p.shape[r - p.y][..Clamp(h - p.x, |p.shape[r - p.y]|)])
  {
    var row := p.shape[r - p.y];
    if h > 0 {
      RowCoverCountsRow(p, r, h - 1);
      var k := h - 1 - p.x;
      if 0 <= k < |row| {
        assert row[..k + 1] == row[..k] + [row[k]];
        RowOnesAppend(row[..k], [row[k]]);
        assert RowOnes([row[k]]) == if row[k] then 1 else 0;
      }
    }
  }

  /** A block inside the grid has all of its tiles of row r among the ten columns. */
  lemma RowCoverWholeRow(p: Piece, r: int)
    requires Rectangular(p.shape) && InGrid(p) && 0 <= r - p.y < |p.shape|
    ensures RowCover(p, r, Cols) == RowOnes(p.shape[r - p.y])
  {
    var row := p.shape[r - p.y];
    RowCoverCountsRow(p, r, Cols);
    assert |row| == Width(p.shape);
    assert row[..|row|] == row;
  }

  /** Tiles in columns before h of row r, summed over the affected blocks among the first n. */
  function LostCols(ps: seq<Piece>, owners: seq<Cell>, r: int, n: nat, h: nat): nat
    requires n <= |ps|
  {
    if n == 0 then 0
    else LostCols(ps, owners, r, n - 1, h) + (if OffsetOf(owners, n - 1).Some? then RowCover(ps[n - 1], r, h) else 0)
  }

  /** How many affected blocks among the first n have a tile at (r, c). */
  function Hits(ps: seq<Piece>, owners: seq<Cell>, r: int, n: nat, c: int): nat
    requires n <= |ps|
  {
    if n == 0 then 0
    else Hits(ps, owners, r, n - 1, c) + (if OffsetOf(owners, n - 1).Some? && Covers(ps[n - 1], r, c) then 1 else 0)
  }

  lemma {:induction false} LostColsZero(ps: seq<Piece>, owners: seq<Cell>, r: int, n: nat)
    requires n <= |ps|
    ensures LostCols(ps, owners, r, n, 0) == 0
  {
    if n > 0 {
      LostColsZero(ps, owners, r, n - 1);
    }
  }

  /** Widening the counted columns by one adds the hits in the new column. */
  lemma {:induction false} LostColsStep(ps: seq<Piece>, owners: seq<Cell>, r: int, n: nat, h: nat)
    requires n <= |ps|
    ensures LostCols(ps, owners, r, n, h + 1) == LostCols(ps, owners, r, n, h) + Hits(ps, owners, r, n, h)
  {
    if n > 0 {
      LostColsStep(ps, owners, r, n - 1, h);
    }
  }

  /** If exactly one block covers (r, c) and it is affected, the cell is hit once. */
  lemma {:induction false} HitsSingle(ps: seq<Piece>, owners: seq<Cell>, r: int, n: nat, c: int, j0: nat)
    requires n <= |ps| && j0 < |ps| && OffsetOf(owners, j0).Some? && Covers(ps[j0], r, c)
    requires forall j :: 0 <= j < |ps| && j != j0 ==> !Covers(ps[j], r, c)
    ensures Hits(ps, owners, r, n, c) == if j0 < n then 1 else 0
  {
    if n > 0 {
      HitsSingle(ps, owners, r, n - 1, c, j0);
    }
  }

  /** Two blocks with a tile on one cell overlap. */
  lemma SharedCellOverlap(p: Piece, q: Piece, r: int, c: int)
    ensures Covers(p, r, c) && Covers(q, r, c) ==> Overlap(p, q)
  {
    if Covers(p, r, c) && Covers(q, r, c) {
      OverlapWitness(p, q, r, c);
    }
  }

  /** Every column of a full row is hit exactly once by the affected blocks. */
  lemma FullRowColumnHit(ps: seq<Piece>, r: nat, c: int)
    requires Disjoint(ps) && r < Rows && 0 <= c < Cols && FullRow(Occupancy(ps), r)
    ensures Hits(ps, RowOwners(ps, r), r, |ps|, c) == 1
  {
    var owners := RowOwners(ps, r);
    var o := Occupancy(ps)[r][c];
    RowOwnersCoverRow(ps, r, c);
    OccupancySound(ps, r, c);
    var j0 := o.piece;
    assert Owned(j0, o.row) in owners;
    forall j | 0 <= j < |ps| && j != j0
      ensures !Covers(ps[j], r, c)
    {
      SharedCellOverlap(ps[j], ps[j0], r, c);
    }
    HitsSingle(ps, owners, r, |ps|, c, j0);
  }

  /** When every column is hit exactly once, the first h columns count h tiles. */
  lemma {:induction false} LostColsOncePerColumn(ps: seq<Piece>, owners: seq<Cell>, r: int, h: nat)
    requires h <= Cols && forall c :: 0 <= c < Cols ==> Hits(ps, owners, r, |ps|, c) == 1
    ensures LostCols(ps, owners, r, |ps|, h) == h
  {
    if h == 0 {
      LostColsZero(ps, owners, r, |ps|);
    } else {
      LostColsOncePerColumn(ps, owners, r, h - 1);
      LostColsStep(ps, owners, r, |ps|, h - 1);
    }
  }

  lemma LostColsFullRow(ps: seq<Piece>, r: nat)
    requires Disjoint(ps) && r < Rows && FullRow(Occupancy(ps), r)
    ensures LostCols(ps, RowOwners(ps, r), r, |ps|, Cols) == Cols
  {
    var owners := RowOwners(ps, r);
    forall c | 0 <= c < Cols
      ensures Hits(ps, owners, r, |ps|, c) == 1
    {
      FullRowColumnHit(ps, r, c);
    }
    LostColsOncePerColumn(ps, owners, r, Cols);
  }

  lemma {:induction false} LostOnesByColumns(ps: seq<Piece>, owners: seq<Cell>, r: int, n: nat)
    requires AllWellShaped(ps) && AllInGrid(ps) && ValidOwners(ps, owners, r) && n <= |ps|
    ensures LostOnes(ps, owners, r, n) == LostCols(ps, owners, r, n, Cols)
  {
    if n > 0 {
      LostOnesByColumns(ps, owners, r, n - 1);
      match OffsetOf(owners, n - 1)
      case None =>
      case Some(off) =>
        assert off == r - ps[n - 1].y;
        RowCoverWholeRow(ps[n - 1], r);
    }
  }

  /**
    On a board where no two blocks overlap and all lie inside the grid, one clear
    takes away exactly the ten tiles of the full row.
  */
  lemma ClearRowRemovesTenCells(b: Board, r: nat)
    requires AllWellShaped(b.pieces) && AllInGrid(b.pieces) && Disjoint(b.pieces)
    requires r < Rows && FullRow(Occupancy(b.pieces), r)
    ensures TotalOnes(ClearRow(b, r).pieces) + Cols == TotalOnes(b.pieces)
  {
    var ps := b.pieces;
    var owners := RowOwners(ps, r);
    ClearRowLoss(b, r);
    assert ClearRow(b, r).pieces == Cascade(Survivors(ShedOwners(ps, owners, r)));
    LostOnesByColumns(ps, owners, r, |ps|);
    LostColsFullRow(ps, r);
  }
}

=== FILE: matrices.dfy ===
/**
  0/1 matrices as the game stores a piece's `struct`: a sequence of rows, each a
  sequence of cells, `true` standing for a 1. The numpy operations the game uses
  (deleting a row or a column, `rot90`, `flip` along axis 0) and the recursive
  `remove_empty_columns` normaliser are defined here, with their properties.
*/
module Matrices {
  import opened Options

  type Matrix = seq<seq<bool>>

  /** Number of columns, read from the first row as numpy's `shape[1]`. */
  function Width(m: Matrix): nat {
    if |m| == 0 then 0 else |m[0]|
  }

  /** Every row has the same length: what a 2-D numpy array always is. */
  predicate Rectangular(m: Matrix) {
    forall i :: 0 <= i < |m| ==> |m[i]| == Width(m)
  }

  // ---------------------------------------------------------------------------
  // Counting 1-cells
  // ---------------------------------------------------------------------------

  function RowOnes(row: seq<bool>): nat {
    if |row| == 0 then 0 else (if row[0] then 1 else 0) + RowOnes(row[1..])
  }

  function CountOnes(m: Matrix): nat {
    if |m| == 0 then 0 else RowOnes(m[0]) + CountOnes(m[1..])
  }

  /** Some cell holds a 1 (numpy's `arr.any()`). */
  predicate HasOne(m: Matrix) {
    exists i, j | 0 <= i < |m| && 0 <= j < |m[i]| :: m[i][j]
  }

  lemma {:induction false} RowOnesAppend(a: seq<bool>, b: seq<bool>)
    ensures RowOnes(a + b) == RowOnes(a) + RowOnes(b)
  {
    if |a| == 0 {
      assert a + b == b;
    } else {
      assert (a + b)[1..] == a[1..] + b;
      RowOnesAppend(a[1..], b);
    }
  }

  lemma {:induction false} CountOnesAppend(a: Matrix, b: Matrix)
    ensures CountOnes(a + b) == CountOnes(a) + CountOnes(b)
  {
    if |a| == 0 {
      assert a + b == b;
    } else {
      assert (a + b)[1..] == a[1..] + b;
      CountOnesAppend(a[1..], b);
    }
  }

  lemma {:induction false} RowOnesPositive(row: seq<bool>)
    ensures RowOnes(row) > 0 <==> exists j :: 0 <= j < |row| && row[j]
  {
    if |row| > 0 {
      RowOnesPositive(row[1..]);
      if row[0] {
      } else if RowOnes(row) > 0 {
        var j :| 0 <= j < |row[1..]| && row[1..][j];
        assert row[j + 1];
      } else {
        forall j | 0 <= j < |row|
          ensures !row[j]
        {
          if j > 0 { assert row[j] == row[1..][j - 1]; }
        }
      }
    }
  }

  /** A positive count is the same thing as a 1 somewhere. */
  lemma {:induction false} HasOneIffCount(m: Matrix)
    ensures HasOne(m) <==> CountOnes(m) > 0
  {
    if |m| > 0 {
      HasOneIffCount(m[1..]);
      RowOnesPositive(m[0]);
      if HasOne(m) {
        var i, j :| 0 <= i < |m| && 0 <= j < |m[i]| && m[i][j];
        if i > 0 { assert m[1..][i - 1][j]; }
      }
      if CountOnes(m) > 0 {
        if RowOnes(m[0]) == 0 {
          var i, j :| 0 <= i < |m[1..]| && 0 <= j < |m[1..][i]| && m[1..][i][j];
          assert m[i + 1][j];
        }
      }
    }
  }

  /** Two matrices whose rows pair off with equal counts have equal counts. */
  lemma {:induction false} CountOnesRowwise(a: Matrix, b: Matrix)
    requires |a| == |b|
    requires forall i :: 0 <= i < |a| ==> RowOnes(a[i]) == RowOnes(b[i])
    ensures CountOnes(a) == CountOnes(b)
  {
    if |a| > 0 {
      CountOnesRowwise(a[1..], b[1..]);
    }
  }

  // ---------------------------------------------------------------------------
  // Deleting a row (np.delete(arr, i, 0))
  // ---------------------------------------------------------------------------

  function DeleteRow(m: Matrix, r: nat): (d: Matrix)
    requires r < |m|
    ensures |d| == |m| - 1
    ensures forall i :: 0 <= i < |d| ==> d[i] == (if i < r then m[i] else m[i + 1])
    ensures Rectangular(m) ==> Rectangular(d) && (|d| > 0 ==> Width(d) == Width(m))
    ensures CountOnes(d) + RowOnes(m[r]) == CountOnes(m)
  {
    var d := m[..r] + m[r + 1..];
    assert m == m[..r] + [m[r]] + m[r + 1..];
    CountOnesAppend(m[..r], m[r + 1..]);
    CountOnesAppend(m[..r] + [m[r]], m[r + 1..]);
    CountOnesAppend(m[..r], [m[r]]);
    d
  }

  // ---------------------------------------------------------------------------
  // Columns
  // ---------------------------------------------------------------------------

  /** Column `c` holds no 1 (numpy's `col.max() == 0`). */
  predicate ColumnEmpty(m: Matrix, c: nat) {
    forall i :: 0 <= i < |m| && c < |m[i]| ==> !m[i][c]
  }

  predicate NoEmptyColumn(m: Matrix) {
    forall j :: 0 <= j < Width(m) ==> !ColumnEmpty(m, j)
  }

  /**
    The scan `for colid, col in enumerate(arr.T)` of remove_empty_columns:
    the first empty column at or after `from`, if any.
  */
  function FindEmptyColumn(m: Matrix, from: nat): (r: Option<nat>)
    decreases Width(m) - from
    ensures r.Some? ==> from <= r.value < Width(m) && ColumnEmpty(m, r.value)
    ensures forall j :: from <= j < Width(m) && (r.None? || j < r.value) ==> !ColumnEmpty(m, j)
  {
    if from >= Width(m) then None
    else if ColumnEmpty(m, from) then Some(from)
    else FindEmptyColumn(m, from + 1)
  }

  /** np.delete(arr, c, 1). */
  function DeleteColumn(m: Matrix, c: nat): (d: Matrix)
    requires Rectangular(m) && c < Width(m)
    ensures |d| == |m| && Rectangular(d) && Width(d) == Width(m) - 1
    ensures forall i, j :: 0 <= i < |d| && 0 <= j < Width(d) ==>
      d[i][j] == m[i][if j < c then j else j + 1]
  {
    seq(|m|, i requires 0 <= i < |m| => m[i][..c] + m[i][c + 1..])
  }

  /** Column `j` of the smaller matrix is column `j` or `j + 1` of the larger one. */
  lemma DeleteColumnColumns(m: Matrix, c: nat, j: nat)
    requires Rectangular(m) && c < Width(m) && j < Width(m) - 1
    ensures ColumnEmpty(DeleteColumn(m, c), j) <==> ColumnEmpty(m, if j < c then j else j + 1)
  {
    var d := DeleteColumn(m, c);
    var k := if j < c then j else j + 1;
    if !ColumnEmpty(m, k) {
      var i :| 0 <= i < |m| && k < |m[i]| && m[i][k];
      assert d[i][j];
    }
  }

  /** Deleting a column without a 1 keeps every row's count. */
  lemma DeleteEmptyColumnCount(m: Matrix, c: nat)
    requires Rectangular(m) && c < Width(m) && ColumnEmpty(m, c)
    ensures CountOnes(DeleteColumn(m, c)) == CountOnes(m)
  {
    var d := DeleteColumn(m, c);
    forall i | 0 <= i < |m|
      ensures RowOnes(d[i]) == RowOnes(m[i])
    {
      var row := m[i];
      assert row == row[..c] + [row[c]] + row[c + 1..];
      assert d[i] == row[..c] + row[c + 1..];
      RowOnesAppend(row[..c], row[c + 1..]);
      RowOnesAppend(row[..c] + [row[c]], row[c + 1..]);
      RowOnesAppend(row[..c], [row[c]]);
    }
    CountOnesRowwise(d, m);
  }

  /** Number of consecutive empty columns starting at `from`. */
  function EmptyRun(m: Matrix, from: nat): (k: nat)
    decreases Width(m) - from
    ensures from + k <= Width(m) || k == 0
    ensures forall j :: from <= j < from + k ==> ColumnEmpty(m, j)
    ensures from + k < Width(m) ==> !ColumnEmpty(m, from + k)
  {
    if from < Width(m) && ColumnEmpty(m, from) then 1 + EmptyRun(m, from + 1) else 0
  }

  /** Number of leading all-zero columns. */
  function LeadingEmptyColumns(m: Matrix): nat {
    EmptyRun(m, 0)
  }

  lemma {:induction false} EmptyRunAfterDelete(m: Matrix, j: nat)
    requires Rectangular(m) && 0 < Width(m)
    decreases Width(m) - j
    ensures EmptyRun(DeleteColumn(m, 0), j) == EmptyRun(m, j + 1)
  {
    var d := DeleteColumn(m, 0);
    if j < Width(d) {
      DeleteColumnColumns(m, 0, j);
      EmptyRunAfterDelete(m, j + 1);
    }
  }

  // ---------------------------------------------------------------------------
  // remove_empty_columns and its reference definition
  // ---------------------------------------------------------------------------

  /**
    remove_empty_columns(arr, _x_offset, _keep_counting): delete the first empty
    column, add one to the offset if every column before it was empty too, and
    start again on the smaller matrix; stop when no column is empty.
  */
  function RemoveEmptyColumnsFrom(m: Matrix, offset: nat, keepCounting: bool): (r: (Matrix, nat))
    requires Rectangular(m) && |m| > 0
    decreases Width(m)
    ensures Rectangular(r.0) && |r.0| == |m|
    ensures NoEmptyColumn(r.0)
    ensures CountOnes(r.0) == CountOnes(m)
    ensures r.1 == if keepCounting then offset + LeadingEmptyColumns(m) else offset
    ensures Width(r.0) + (r.1 - offset) <= Width(m)
  {
    match FindEmptyColumn(m, 0)
    case None => (m, offset)
    case Some(c) =>
      var counting := keepCounting && c == 0;
      DeleteEmptyColumnCount(m, c);
      EmptyRunAfterDelete(m, 0);
      RemoveEmptyColumnsFrom(DeleteColumn(m, c), if counting then offset + 1 else offset, counting)
  }

  /** The top-level call `remove_empty_columns(arr)`. */
  function RemoveEmptyColumns(m: Matrix): (r: (Matrix, nat))
    requires Rectangular(m) && |m| > 0
  {
    RemoveEmptyColumnsFrom(m, 0, true)
  }

  /** The cells of `row` whose column is marked in `mask`, in order. */
  function Keep(row: seq<bool>, mask: seq<bool>): seq<bool>
    requires |row| == |mask|
  {
    if |row| == 0 then []
    else (if mask[0] then [row[0]] else []) + Keep(row[1..], mask[1..])
  }

  /** Which columns hold at least one 1. */
  function NonEmptyMask(m: Matrix): seq<bool> {
    seq(Width(m), j requires 0 <= j < Width(m) => !ColumnEmpty(m, j))
  }

  /**
    Reference definition of column compaction: every row keeps exactly the cells
    of the columns that hold a 1, in their original order.
  */
  function Compact(m: Matrix): Matrix
    requires Rectangular(m)
  {
    seq(|m|, i requires 0 <= i < |m| => Keep(m[i], NonEmptyMask(m)))
  }

  lemma {:induction false} KeepAppend(a: seq<bool>, ma: seq<bool>, b: seq<bool>, mb: seq<bool>)
    requires |a| == |ma| && |b| == |mb|
    ensures Keep(a + b, ma + mb) == Keep(a, ma) + Keep(b, mb)
  {
    if |a| == 0 {
      assert a + b == b && ma + mb == mb;
    } else {
      var head: seq<bool> := if ma[0] then [a[0]] else [];
      assert (a + b)[0] == a[0] && (ma + mb)[0] == ma[0];
      assert (a + b)[1..] == a[1..] + b;
      assert (ma + mb)[1..] == ma[1..] + mb;
      KeepAppend(a[1..], ma[1..], b, mb);
      assert Keep(a + b, ma + mb) == head + (Keep(a[1..], ma[1..]) + Keep(b, mb));
      assert Keep(a, ma) == head + Keep(a[1..], ma[1..]);
    }
  }

  lemma {:induction false} KeepAll(row: seq<bool>, mask: seq<bool>)
    requires |row| == |mask| && forall j :: 0 <= j < |mask| ==> mask[j]
    ensures Keep(row, mask) == row
  {
    if |row| > 0 {
      KeepAll(row[1..], mask[1..]);
    }
  }

  lemma KeepSkip(row: seq<bool>, mask: seq<bool>, c: nat)
    requires |row| == |mask| && c < |mask| && !mask[c]
    ensures Keep(row[..c] + row[c + 1..], mask[..c] + mask[c + 1..]) == Keep(row, mask)
  {
    var a, b := row[..c], row[c + 1..];
    var ma, mb := mask[..c], mask[c + 1..];
    SplitAround(row, c);
    SplitAround(mask, c);
    KeepDropsFalse(row[c], b, mb);
    KeepAppend(a, ma, [row[c]] + b, [mask[c]] + mb);
    KeepAppend(a, ma, b, mb);
  }

  lemma SplitAround<T>(s: seq<T>, c: nat)
    requires c < |s|
    ensures s == s[..c] + ([s[c]] + s[c + 1..])
  {
  }

  /** A column the mask leaves out contributes nothing. */
  lemma KeepDropsFalse(x: bool, b: seq<bool>, mb: seq<bool>)
    requires |b| == |mb|
    ensures Keep([x] + b, [false] + mb) == Keep(b, mb)
  {
    assert ([x] + b)[1..] == b && ([false] + mb)[1..] == mb;
  }

  /** Deleting an empty column does not change the compacted matrix. */
  lemma CompactAfterDelete(m: Matrix, c: nat)
    requires Rectangular(m) && c < Width(m) && ColumnEmpty(m, c)
    ensures Compact(DeleteColumn(m, c)) == Compact(m)
  {
    var d := DeleteColumn(m, c);
    var mask := NonEmptyMask(m);
    forall j | 0 <= j < Width(d)
      ensures NonEmptyMask(d)[j] == (mask[..c] + mask[c + 1..])[j]
    {
      DeleteColumnColumns(m, c, j);
    }
    assert NonEmptyMask(d) == mask[..c] + mask[c + 1..];
    forall i | 0 <= i < |m|
      ensures Compact(d)[i] == Compact(m)[i]
    {
      assert d[i] == m[i][..c] + m[i][c + 1..];
      KeepSkip(m[i], mask, c);
    }
  }

  /** The recursive normaliser computes the reference compaction. */
  lemma {:induction false} RemoveEmptyColumnsIsCompact(m: Matrix, offset: nat, keepCounting: bool)
    requires Rectangular(m) && |m| > 0
    decreases Width(m)
    ensures RemoveEmptyColumnsFrom(m, offset, keepCounting).0 == Compact(m)
  {
    match FindEmptyColumn(m, 0)
    case None =>
      forall i | 0 <= i < |m|
        ensures Compact(m)[i] == m[i]
      {
        KeepAll(m[i], NonEmptyMask(m));
      }
    case Some(c) =>
      var counting := keepCounting && c == 0;
      CompactAfterDelete(m, c);
      RemoveEmptyColumnsIsCompact(DeleteColumn(m, c), if counting then offset + 1 else offset, counting);
  }

  // ---------------------------------------------------------------------------
  // np.rot90 and np.flip(arr, 0)
  // ---------------------------------------------------------------------------

  /** np.rot90: a quarter turn counter-clockwise; entry (i, j) is m[j][W-1-i]. */
  function Rot90(m: Matrix): (r: Matrix)
    requires Rectangular(m)
    ensures Rectangular(r) && |r| == Width(m)
    ensures Width(m) > 0 ==> Width(r) == |m|
  {
    seq(Width(m), i requires 0 <= i < Width(m) =>
      seq(|m|, j requires 0 <= j < |m| => m[j][Width(m) - 1 - i]))
  }

  /** np.flip(arr, 0): the rows in reverse order. */
  function FlipRows(m: Matrix): (r: Matrix)
    ensures |r| == |m|
    ensures forall i :: 0 <= i < |m| ==> r[i] == m[|m| - 1 - i]
    ensures Rectangular(m) ==> Rectangular(r) && Width(r) == Width(m)
  {
    seq(|m|, i requires 0 <= i < |m| => m[|m| - 1 - i])
  }

  /** Two quarter turns are a half turn: both axes reversed. */
  lemma Rot180(m: Matrix)
    requires Rectangular(m) && |m| > 0 && Width(m) > 0
    ensures |Rot90(Rot90(m))| == |m| && Rectangular(Rot90(Rot90(m)))
    ensures forall i, j :: 0 <= i < |m| && 0 <= j < Width(m) ==>
      Rot90(Rot90(m))[i][j] == m[|m| - 1 - i][Width(m) - 1 - j]
  {
  }

  /** Four quarter turns give back the original matrix. */
  lemma Rot90FourTimes(m: Matrix)
    requires Rectangular(m) && |m| > 0 && Width(m) > 0
    ensures Rot90(Rot90(Rot90(Rot90(m)))) == m
  {
    var h := Rot90(Rot90(m));
    Rot180(m);
    Rot180(h);
    var r := Rot90(Rot90(h));
    assert |r| == |m|;
    forall i | 0 <= i < |m|
      ensures r[i] == m[i]
    {
      assert |r[i]| == |m[i]|;
    }
  }

  lemma FlipRowsTwice(m: Matrix)
    ensures FlipRows(FlipRows(m)) == m
  {
  }

  /** Turning or flipping keeps some 1 in the matrix. */
  lemma Rot90HasOne(m: Matrix)
    requires Rectangular(m) && HasOne(m)
    ensures HasOne(Rot90(m))
  {
    var i, j :| 0 <= i < |m| && 0 <= j < |m[i]| && m[i][j];
    var r := Rot90(m);
    assert r[Width(m) - 1 - j][i];
  }

  lemma FlipRowsHasOne(m: Matrix)
    requires HasOne(m)
    ensures HasOne(FlipRows(m))
  {
    var i, j :| 0 <= i < |m| && 0 <= j < |m[i]| && m[i][j];
    assert FlipRows(m)[|m| - 1 - i][j];
  }
}

=== FILE: options.dfy ===
/** The optional value used wherever the game keeps `None` or a missing result. */
module Options {

  datatype Option<+T> = None | Some(value: T)

}

=== FILE: pieces.dfy ===
/**
  A Block: its matrix, its top-left grid position and its `current` (falling)
  flag. The pixel masks of the game are replaced by the cells the matrix covers;
  tiles are drawn one pixel inside each 30-pixel cell, so two masks meet exactly
  when two pieces cover a common cell.
*/
module Pieces {
  import opened Options
  import opened Matrices
  import opened Shapes

  /** The grid is GRID_WIDTH / TILE_SIZE = 300 / 30 columns by 600 / 30 rows. */
  const Cols: int := 10
  const Rows: int := 20

  /** Block._draw puts a new block at column 4, row 0. */
  const SpawnX: int := 4
  const SpawnY: int := 0

  datatype Piece = Piece(kind: Kind, shape: Matrix, x: int, y: int, current: bool)

  /** The outcome of `move_down`: it moved, or it raised BottomReached. */
  datatype Fall = Fell(piece: Piece) | BottomReached(piece: Piece)

  /** A matrix a live block can have: rectangular with at least one 1. */
  predicate WellShaped(p: Piece) {
    Rectangular(p.shape) && HasOne(p.shape)
  }

  /** The block's rectangle lies inside the 10 x 20 grid. */
  predicate InGrid(p: Piece) {
    0 <= p.x && p.x + Width(p.shape) <= Cols && 0 <= p.y && p.y + |p.shape| <= Rows
  }

  /**
    What the game keeps for every block: inside the side walls, above the floor,
    and at most 4 x 4. There is no top bound (RotateCanLeaveTop).
  */
  predicate Walled(p: Piece) {
    |p.shape| <= 4 && Width(p.shape) <= 4 && 0 <= p.x && p.x + Width(p.shape) <= Cols && p.y + |p.shape| <= Rows
  }

  /** Grid cell (r, c) is one of the block's tiles. */
  predicate Covers(p: Piece, r: int, c: int) {
    0 <= r - p.y < |p.shape| && 0 <= c - p.x < |p.shape[r - p.y]| && p.shape[r - p.y][c - p.x]
  }

  /** Two blocks have a tile on the same cell (pygame.sprite.collide_mask). */
  predicate Overlap(p: Piece, q: Piece) {
    exists r, c | p.y <= r < p.y + |p.shape| && p.x <= c < p.x + |p.shape[r - p.y]| ::
      Covers(p, r, c) && Covers(q, r, c)
  }

  lemma OverlapWitness(p: Piece, q: Piece, r: int, c: int)
    requires Covers(p, r, c) && Covers(q, r, c)
    ensures Overlap(p, q)
  {
  }

  /** Block.collide: the block overlaps one of the others. */
  predicate Collide(p: Piece, others: seq<Piece>) {
    exists j :: 0 <= j < |others| && Overlap(p, others[j])
  }

  /** The other blocks of the group, as `collide` skips the block itself. */
  function Others(ps: seq<Piece>, i: nat): (o: seq<Piece>)
    requires i < |ps|
    ensures |o| == |ps| - 1
    ensures forall j :: 0 <= j < |o| ==> o[j] == ps[if j < i then j else j + 1]
  {
    ps[..i] + ps[i + 1..]
  }

  lemma CollideOthers(ps: seq<Piece>, i: nat, p: Piece)
    requires i < |ps|
    ensures Collide(p, Others(ps, i)) <==> exists j :: 0 <= j < |ps| && j != i && Overlap(p, ps[j])
  {
    var o := Others(ps, i);
    if exists j :: 0 <= j < |ps| && j != i && Overlap(p, ps[j]) {
      var j :| 0 <= j < |ps| && j != i && Overlap(p, ps[j]);
      assert Overlap(p, o[if j < i then j else j - 1]);
    }
  }

  /**
    The loop of Block.collide over the whole group: skip the entry at index `self`
    (the block itself, or none when `self` is out of range), report the first overlap.
  */
  method CollideScan(p: Piece, group: seq<Piece>, self: int) returns (hit: bool)
    ensures hit <==> exists j :: 0 <= j < |group| && j != self && Overlap(p, group[j])
    ensures 0 <= self < |group| ==> (hit <==> Collide(p, Others(group, self)))
    ensures !(0 <= self < |group|) ==> (hit <==> Collide(p, group))
  {
    hit := false;
    var j := 0;
    while j < |group| && !hit
      invariant 0 <= j <= |group|
      invariant hit <==> exists k :: 0 <= k < j && k != self && Overlap(p, group[k])
    {
      if j != self && Overlap(p, group[j]) {
        hit := true;
      }
      j := j + 1;
    }
    if 0 <= self < |group| {
      CollideOthers(group, self, p);
    }
  }

  /** A fresh block as `Block.__init__` builds it from one draw. */
  function NewPiece(d: Draw): (p: Piece)
    ensures WellShaped(p) && InGrid(p) && Walled(p) && p.current
    ensures p.kind == d.kind && p.shape == DrawShape(d)
  {
    Piece(d.kind, DrawShape(d), SpawnX, SpawnY, true)
  }

  // ---------------------------------------------------------------------------
  // move_left, move_right, move_down
  // ---------------------------------------------------------------------------

  /** move_left: one column left, undone past the left edge or onto another block. */
  function MoveLeft(p: Piece, others: seq<Piece>): (q: Piece)
    ensures q == p || q == p.(x := p.x - 1)
    ensures q != p <==> p.x >= 1 && !Collide(p.(x := p.x - 1), others)
    ensures InGrid(p) && !Collide(p, others) ==> InGrid(q) && !Collide(q, others)
    ensures Walled(p) ==> Walled(q)
  {
    var moved := p.(x := p.x - 1);
    if moved.x < 0 || Collide(moved, others) then p else moved
  }

  /** move_right: one column right, undone past the right edge or onto another block. */
  function MoveRight(p: Piece, others: seq<Piece>): (q: Piece)
    ensures q == p || q == p.(x := p.x + 1)
    ensures q != p <==> p.x + 1 + Width(p.shape) <= Cols && !Collide(p.(x := p.x + 1), others)
    ensures InGrid(p) && !Collide(p, others) ==> InGrid(q) && !Collide(q, others)
    ensures Walled(p) ==> Walled(q)
  {
    var moved := p.(x := p.x + 1);
    if moved.x + Width(moved.shape) > Cols || Collide(moved, others) then p else moved
  }

  /**
    move_down: one row down; past the bottom edge or onto another block the move is
    undone, the block stops being current and BottomReached is raised.
  */
  function MoveDown(p: Piece, others: seq<Piece>): (f: Fall)
    ensures f.Fell? ==> f.piece == p.(y := p.y + 1)
    ensures f.BottomReached? ==> f.piece == p.(current := false)
    ensures f.BottomReached? <==> p.y + 1 + |p.shape| > Rows || Collide(p.(y := p.y + 1), others)
    ensures InGrid(p) && !Collide(p, others) ==> InGrid(f.piece) && !Collide(f.piece, others)
    ensures Walled(p) ==> Walled(f.piece)
  {
    var moved := p.(y := p.y + 1);
    if moved.y + |moved.shape| > Rows || Collide(moved, others) then BottomReached(p.(current := false))
    else Fell(moved)
  }

  /** Pressing left `n` times (each press a `move_left`). */
  function MoveLeftTimes(p: Piece, others: seq<Piece>, n: nat): Piece
    decreases n
  {
    if n == 0 then p else MoveLeftTimes(MoveLeft(p, others), others, n - 1)
  }

  /** On an empty board, pressing left stops at column 0 and never goes past it. */
  lemma {:induction false} LeftStopsAtWall(p: Piece, n: nat)
    requires p.x >= 0
    decreases n
    ensures MoveLeftTimes(p, [], n) == p.(x := if p.x - n < 0 then 0 else p.x - n)
  {
    if n > 0 {
      var q := MoveLeft(p, []);
      assert q == p.(x := if p.x >= 1 then p.x - 1 else p.x);
      LeftStopsAtWall(q, n - 1);
    }
  }

  // ---------------------------------------------------------------------------
  // rotate
  // ---------------------------------------------------------------------------

  /** `while self.rect.right > GRID_WIDTH: self.x -= 1` for a rectangle `w` wide. */
  function PullInsideRight(x: int, w: nat): (r: int)
    decreases x + w
    ensures r + w <= Cols
    ensures x + w <= Cols ==> r == x
    ensures x + w > Cols ==> r + w == Cols
  {
    if x + w > Cols then PullInsideRight(x - 1, w) else x
  }

  /** `while self.rect.left < 0: self.x += 1`. */
  function PushInsideLeft(x: int): (r: int)
    decreases -x
    ensures r >= 0
    ensures x >= 0 ==> r == x
    ensures x < 0 ==> r == 0
  {
    if x < 0 then PushInsideLeft(x + 1) else x
  }

  /** `while self.rect.bottom > GRID_HEIGHT: self.y -= 1` for a rectangle `h` high. */
  function PullInsideBottom(y: int, h: nat): (r: int)
    decreases y + h
    ensures r + h <= Rows
    ensures y + h <= Rows ==> r == y
    ensures y + h > Rows ==> r + h == Rows
  {
    if y + h > Rows then PullInsideBottom(y - 1, h) else y
  }

  /** The smallest origin row among the other blocks: no block can be hit above it. */
  function TopRow(others: seq<Piece>): (t: int)
    ensures forall j :: 0 <= j < |others| ==> t <= others[j].y
  {
    if |others| == 0 then 0
    else var rest := TopRow(others[1..]); if others[0].y < rest then others[0].y else rest
  }

  /** A colliding block reaches below the topmost origin row of the others. */
  lemma CollideReachesTopRow(p: Piece, others: seq<Piece>)
    requires Collide(p, others)
    ensures p.y + |p.shape| > TopRow(others)
  {
    var j :| 0 <= j < |others| && Overlap(p, others[j]);
    var r, c :| Covers(p, r, c) && Covers(others[j], r, c);
  }

  /** The block would collide if its origin row were `k`. */
  predicate BlockedAt(p: Piece, others: seq<Piece>, k: int) {
    Collide(p.(y := k), others)
  }

  /** `while Block.collide(self, group): self.y -= 1`: rise to the first free row. */
  function RiseClear(p: Piece, others: seq<Piece>): (q: Piece)
    decreases p.y + |p.shape| - TopRow(others)
    ensures q == p.(y := q.y) && q.y <= p.y
    ensures !Collide(q, others)
    ensures forall k :: q.y < k <= p.y ==> BlockedAt(p, others, k)
  {
    if Collide(p, others) then
      CollideReachesTopRow(p, others);
      var up := p.(y := p.y - 1);
      var q := RiseClear(up, others);
      assert BlockedAt(p, others, p.y) by { assert p.(y := p.y) == p; }
      assert forall k :: q.y < k < p.y ==> BlockedAt(p, others, k) by {
        forall k | q.y < k < p.y
          ensures BlockedAt(p, others, k)
        {
          assert BlockedAt(up, others, k);
          assert up.(y := k) == p.(y := k);
        }
      }
      q
    else p
  }

  /**
    rotate: a quarter turn counter-clockwise, then nudged left, right and up until the
    rectangle is back inside the grid, then up again while it overlaps another block.
    Nothing bounds the last rise, so the block may end above the top edge.
  */
  function Rotate(p: Piece, others: seq<Piece>): (q: Piece)
    requires Rectangular(p.shape)
    ensures q.shape == Rot90(p.shape) && q.kind == p.kind && q.current == p.current
    ensures Width(p.shape) > 0 ==> Width(q.shape) == |p.shape|
    ensures q.x >= 0 && (|p.shape| <= Cols ==> q.x + Width(q.shape) <= Cols)
    ensures p.x >= 0 && p.x + Width(q.shape) <= Cols ==> q.x == p.x
    ensures p.x + Width(q.shape) > Cols && Width(q.shape) <= Cols ==> q.x == Cols - Width(q.shape)
    ensures p.x < 0 && p.x + Width(q.shape) <= Cols ==> q.x == 0
    ensures q.y + |q.shape| <= Rows && q.y <= p.y
    ensures !Collide(q, others)
    ensures forall k :: q.y < k <= p.y && k + |q.shape| <= Rows ==> BlockedAt(q, others, k)
    ensures WellShaped(p) && Walled(p) ==> Walled(q)
  {
    var m := Rot90(p.shape);
    var x := PushInsideLeft(PullInsideRight(p.x, Width(m)));
    var y := PullInsideBottom(p.y, |m|);
    var nudged := p.(shape := m, x := x, y := y);
    var q := RiseClear(nudged, others);
    assert forall k :: q.y < k <= y ==> BlockedAt(q, others, k) by {
      forall k | q.y < k <= y
        ensures BlockedAt(q, others, k)
      {
        assert BlockedAt(nudged, others, k);
        assert nudged.(y := k) == q.(y := k);
      }
    }
    q
  }

  /** A horizontal line at the top, turned upright, meets a square two rows below. */
  lemma UprightLineMeetsSquare(up: Piece, square: Piece)
    requires up == Piece(Line, [[true], [true], [true], [true]], 3, 0, true)
    requires square == Piece(Square, Template(Square), 3, 2, false)
    ensures BlockedAt(up, [square], 0) && BlockedAt(up, [square], -1)
    ensures !BlockedAt(up, [square], -2)
  {
    assert [square][0] == square;
    assert up.(y := 0) == up;
    OverlapWitness(up, square, 2, 3);
    OverlapWitness(up.(y := -1), square, 2, 3);
    forall r, c | Covers(up.(y := -2), r, c)
      ensures !Covers(square, r, c)
    {
    }
  }

  /** A block rotated under a settled block can rise above the top edge of the grid. */
  lemma RotateCanLeaveTop()
    ensures var line := Piece(Line, [[true, true, true, true]], 3, 0, true);
            var square := Piece(Square, Template(Square), 3, 2, false);
            Rotate(line, [square]) == Piece(Line, [[true], [true], [true], [true]], 3, -2, true)
  {
    var line := Piece(Line, [[true, true, true, true]], 3, 0, true);
    var square := Piece(Square, Template(Square), 3, 2, false);
    var upright := Rot90(line.shape);
    assert |upright| == 4;
    forall i | 0 <= i < 4
      ensures upright[i] == [true]
    {
      assert |upright[i]| == 1 && upright[i][0] == line.shape[0][3 - i];
    }
    var up := Piece(Line, [[true], [true], [true], [true]], 3, 0, true);
    assert up == line.(shape := upright);
    UprightLineMeetsSquare(up, square);
    var q := Rotate(line, [square]);
    assert q == up.(y := q.y);
    assert q.(y := 0) == up.(y := 0) && q.(y := -1) == up.(y := -1) && q.(y := -2) == up.(y := -2);
    assert !BlockedAt(q, [square], -2);
    assert q.y != 0 && q.y != -1;
    assert q == up.(y := -2);
  }

  // ---------------------------------------------------------------------------
  // Falling under gravity and shedding a cleared row
  // ---------------------------------------------------------------------------

  /** `while True: block.move_down(self)` until BottomReached, as the line-clear cascade does. */
  function DropFully(p: Piece, others: seq<Piece>): (q: Piece)
    decreases Rows - p.y
    ensures q == p.(y := q.y, current := false) && q.y >= p.y
    ensures MoveDown(q, others).BottomReached?
    ensures InGrid(p) && !Collide(p, others) ==> InGrid(q) && !Collide(q, others)
    ensures Walled(p) ==> Walled(q)
  {
    match MoveDown(p, others)
    case Fell(next) => DropFully(next, others)
    case BottomReached(stopped) =>
      assert stopped.(y := stopped.y + 1) == p.(y := p.y + 1).(current := false);
      stopped
  }

  /** The drop stops at the first blocked row: from every row it passes, `move_down` succeeds. */
  lemma {:induction false} DropFullyPassesOnlyOpenRows(p: Piece, others: seq<Piece>, k: int)
    requires p.y <= k < DropFully(p, others).y
    decreases Rows - p.y
    ensures MoveDown(p.(y := k), others).Fell?
  {
    if k == p.y {
      assert p.(y := k) == p;
    } else {
      var next := p.(y := p.y + 1);
      assert MoveDown(p, others) == Fell(next);
      assert next.(y := k) == p.(y := k);
      DropFullyPassesOnlyOpenRows(next, others, k);
    }
  }

  /**
    The shed step of `_check_line_completion` for one affected block: delete row
    `off`; if a 1 is left, strip the empty columns and move the block right by the
    number of leading ones stripped, otherwise the block is removed (None).
  */
  function Shed(p: Piece, off: nat): (r: Option<Piece>)
    requires WellShaped(p) && off < |p.shape|
    ensures r.None? <==> RowOnes(p.shape[off]) == CountOnes(p.shape)
    ensures r.Some? ==> WellShaped(r.value) && NoEmptyColumn(r.value.shape)
    ensures r.Some? ==> r.value.shape == Compact(DeleteRow(p.shape, off))
    ensures r.Some? ==> r.value.x == p.x + LeadingEmptyColumns(DeleteRow(p.shape, off))
    ensures r.Some? ==> r.value == p.(shape := r.value.shape, x := r.value.x)
    ensures r.Some? ==> |r.value.shape| + 1 == |p.shape|
    ensures r.Some? ==> CountOnes(r.value.shape) + RowOnes(p.shape[off]) == CountOnes(p.shape)
    ensures r.Some? && InGrid(p) ==> InGrid(r.value)
    ensures r.Some? && Walled(p) ==> Walled(r.value)
  {
    var rest := DeleteRow(p.shape, off);
    HasOneIffCount(rest);
    if HasOne(rest) then
      var (m, dx) := RemoveEmptyColumns(rest);
      RemoveEmptyColumnsIsCompact(rest, 0, true);
      HasOneIffCount(m);
      Some(p.(shape := m, x := p.x + dx))
    else
      None
  }
}

=== FILE: session.dfy ===
/**
  The event loop of `main`: key presses and releases, the two timers, pausing,
  game over and quitting. Drawing and the clock that fires the timers are not
  modelled; each timer firing is an event carrying the random draws it may need.
*/
module Session {
  import opened Pieces
  import opened Boards

  /** The keys the loop reacts to; every other key is `Other`. */
  datatype Key = LeftKey | RightKey | DownKey | UpKey | Space | Escape | Other

  /**
    pygame.QUIT, KEYDOWN, KEYUP, and the two user events set on timers:
    EVENT_UPDATE_CURRENT_BLOCK (gravity, every second) and
    EVENT_MOVE_CURRENT_BLOCK (held direction, every 100 ms).
  */
  datatype Event =
    | Quit
    | KeyDown(key: Key)
    | KeyUp(key: Key)
    | GravityTick(rolls: Rolls)
    | RepeatTick(rolls: Rolls)

  /** The loop's state: the group, `paused`, `game_over`, and `run` (false once the loop has ended). */
  datatype Game = Game(board: Board, paused: bool, over: bool, running: bool)

  /** MOVEMENT_KEYS. */
  predicate IsMovement(k: Key) {
    k == LeftKey || k == RightKey || k == DownKey
  }

  function HeadingOf(k: Key): (h: Heading)
    requires IsMovement(k)
    ensures k == LeftKey <==> h == Left
    ensures k == RightKey <==> h == Right
    ensures k == DownKey <==> h == Down
  {
    match k
    case LeftKey => Left
    case RightKey => Right
    case DownKey => Down
  }

  /** A fresh game: a new group, neither paused nor over. */
  function NewGame(rolls: Rolls): (g: Game)
    ensures Consistent(g.board) && g.running && !g.paused && !g.over
    ensures g.board.score == 0 && |g.board.pieces| == 1 && g.board.pieces[0].current
  {
    Game(Initial(rolls), false, false, true)
  }

  /** `except TopReached: game_over = True`; the group is as the failed spawn left it. */
  function Settle(g: Game, o: Outcome): (g': Game)
    ensures g'.board == o.board && g'.over == (g.over || o.TopReached?)
    ensures g'.paused == g.paused && g'.running == g.running
  {
    match o
    case Continue(b) => g.(board := b)
    case TopReached(b) => g.(board := b, over := true)
  }

  /**
    One pass of the `for event in pygame.event.get()` body. Reading the current block
    of an empty group raises IndexError, which nothing catches: the loop ends, as it
    does on QUIT and on Escape.
  */
  function Step(g: Game, e: Event): (g': Game)
    requires Consistent(g.board)
    ensures Consistent(g'.board)
    ensures !g.running ==> g' == g
    ensures g.running && (g.paused || g.over) ==> g'.board == g.board && g'.over == g.over
    ensures g.over ==> g'.over
    ensures g'.board.score >= g.board.score
  {
    if !g.running then g
    else
      match e
      case Quit => g.(running := false)
      case KeyUp(k) =>
        var acting := !g.paused && !g.over;
        var g1 :=
          if acting && IsMovement(k) then g.(board := StopMoving(g.board))
          else if acting && k == UpKey then
            (if |g.board.pieces| == 0 then g.(running := false) else g.(board := RotateCurrent(g.board)))
          else g;
        if k == Space then g1.(paused := !g1.paused) else g1
      case KeyDown(k) =>
        if g.paused || g.over then g
        else if IsMovement(k) then g.(board := StartMoving(g.board, HeadingOf(k)))
        else if k == Escape then g.(running := false)
        else g
      case GravityTick(rolls) =>
        if g.paused || g.over then g
        else if |g.board.pieces| == 0 then g.(running := false)
        else Settle(g, UpdateCurrent(g.board, rolls))
      case RepeatTick(rolls) =>
        if g.paused || g.over then g
        else if g.board.heading.None? then g
        else if |g.board.pieces| == 0 then g.(running := false)
        else Settle(g, MoveCurrent(g.board, rolls))
  }

  /** The loop over a sequence of events. */
  function Run(g: Game, es: seq<Event>): (g': Game)
    requires Consistent(g.board)
    decreases |es|
    ensures Consistent(g'.board)
    ensures g'.board.score >= g.board.score
  {
    if |es| == 0 then g else Run(Step(g, es[0]), es[1..])
  }

  /** Releasing Space toggles the pause and touches nothing else, so two releases undo each other. */
  lemma SpaceTogglesPause(g: Game)
    requires Consistent(g.board) && g.running
    ensures Step(g, KeyUp(Space)) == g.(paused := !g.paused)
    ensures Step(Step(g, KeyUp(Space)), KeyUp(Space)) == g
  {
  }

  /** While paused, only the release of Space (and quitting) changes anything. */
  lemma PausedIgnoresEverythingElse(g: Game, e: Event)
    requires Consistent(g.board) && g.running && g.paused
    requires e != KeyUp(Space) && e != Quit
    ensures Step(g, e) == g
  {
  }

  /** Once the game is over, no sequence of events changes the board or revives the game. */
  lemma {:induction false} GameOverIsFinal(g: Game, es: seq<Event>)
    requires Consistent(g.board) && g.over
    decreases |es|
    ensures Run(g, es).over && Run(g, es).board == g.board
  {
    if |es| > 0 {
      GameOverIsFinal(Step(g, es[0]), es[1..]);
    }
  }

  /**
    A gravity tick ends the game exactly when the block lands and the next block
    would overlap the stack; the stack is then left as it was.
  */
  lemma TopReachedEndsGame(g: Game, rolls: Rolls)
    requires Consistent(g.board) && g.running && !g.paused && !g.over && |g.board.pieces| > 0
    ensures var b := g.board;
      var g' := Step(g, GravityTick(rolls));
      var landed := StopMoving(WithCurrent(b, Current(b).(current := false)));
      g'.over <==>
        MoveDown(Current(b), Settled(b)).BottomReached? && Collide(Incoming(landed, rolls), landed.pieces)
    ensures var b := g.board;
      var g' := Step(g, GravityTick(rolls));
      g'.over ==> g'.board == StopMoving(WithCurrent(b, Current(b).(current := false)))
  {
    var b := g.board;
    if MoveDown(Current(b), Settled(b)).BottomReached? {
      WithCurrentConsistent(b, Current(b).(current := false));
    }
  }

  /** A movement key pressed and released with nothing else held leaves the whole game as it was. */
  lemma TapChangesNothing(g: Game, k: Key)
    requires Consistent(g.board) && g.running && !g.paused && !g.over && IsMovement(k)
    requires g.board.heading.None? && !g.board.ignoreNextStop
    ensures Step(Step(g, KeyDown(k)), KeyUp(k)) == g
  {
    PressReleaseStops(g.board, HeadingOf(k));
  }

  /** Quitting ends the loop: no later event has any effect. */
  lemma {:induction false} QuitIsFinal(g: Game, es: seq<Event>)
    requires Consistent(g.board) && !g.running
    decreases |es|
    ensures Run(g, es) == g
  {
    if |es| > 0 {
      QuitIsFinal(Step(g, es[0]), es[1..]);
    }
  }
}

=== FILE: shapes.dfy ===
/**
  The shape catalog: the seven Block subclasses and the orientation a new block
  is given when it is created. The two coin tosses of `Block.__init__` are
  parameters here.
*/
module Shapes {
  import opened Matrices

  /** SquareBlock, TBlock, LineBlock, LBlock, L2Block, ZBlock, Z2Block. */
  datatype Kind = Square | T | Line | L | L2 | Z | Z2

  /** One draw of `get_random_block`: the class and the two orientation coin tosses. */
  datatype Draw = Draw(kind: Kind, rotate: bool, flip: bool)

  /** The class attribute `struct` of each block kind (`true` is a 1). */
  function Template(k: Kind): Matrix {
    match k
    case Square => [[true, true], [true, true]]
    case T => [[true, true, true], [false, true, false]]
    case Line => [[true], [true], [true], [true]]
    case L => [[true, true], [true, false], [true, false]]
    case L2 => [[true, false], [true, false], [true, true]]
    case Z => [[false, true], [true, true], [true, false]]
    case Z2 => [[true, false], [true, true], [false, true]]
  }

  lemma TemplateShape(k: Kind)
    ensures Rectangular(Template(k)) && HasOne(Template(k))
    ensures 1 <= |Template(k)| <= 4 && 1 <= Width(Template(k)) <= 4
  {
    assert Template(k)[1][0] || Template(k)[0][0];
  }

  /**
    The orientation of a new block: its template, turned a quarter counter-clockwise
    when the first coin says so, then mirrored top to bottom when the second does.
  */
  function Orient(k: Kind, rotate: bool, flip: bool): (m: Matrix)
    ensures Rectangular(m) && HasOne(m)
    ensures 1 <= |m| <= 4 && 1 <= Width(m) <= 4
    ensures rotate ==> |m| == Width(Template(k)) && Width(m) == |Template(k)|
    ensures !rotate ==> |m| == |Template(k)| && Width(m) == Width(Template(k))
  {
    var t := Template(k);
    TemplateShape(k);
    var turned := if rotate then Rot90(t) else t;
    Rot90HasOne(t);
    FlipRowsHasOne(turned);
    if flip then FlipRows(turned) else turned
  }

  function DrawShape(d: Draw): Matrix {
    Orient(d.kind, d.rotate, d.flip)
  }

  /** The square looks the same in all four orientations it can be given. */
  lemma SquareOrientationsAgree(rotate: bool, flip: bool)
    ensures Orient(Square, rotate, flip) == Template(Square)
  {
    var m := Orient(Square, rotate, flip);
    forall i | 0 <= i < 2
      ensures m[i] == Template(Square)[i]
    {
      assert |m[i]| == 2;
    }
  }

  /**
    One rotation and one mirror do not reach every orientation: the T block is
    never created with its stem pointing left (three quarter turns of its template).
  */
  lemma TNeverSpawnsStemLeft(rotate: bool, flip: bool)
    ensures Orient(T, rotate, flip) != Rot90(Rot90(Rot90(Template(T))))
  {
    var t := Template(T);
    var three := Rot90(Rot90(Rot90(t)));
    assert |three| == 3 && three[0][0] == false;
    var m := Orient(T, rotate, flip);
    if !rotate {
      assert |m| == 2;
    } else if !flip {
      assert m[0][0] == t[0][2];
    } else {
      assert m[0][0] == Rot90(t)[2][0] == t[0][0];
    }
  }
}
